=== FILE: README.md ===
# forle chat: a Dafny model of the store, the broadcasts and the client derivations

forle is a small chat application: a Rails backend that keeps users,
conversations and messages and pushes new messages over ActionCable, and a
React frontend that lists conversations, shows one chat and sends messages.
This project models the part of it with behaviour worth stating precisely.

- **The store.** Users, conversations and messages live in one immutable
  `State` with a natural-number clock for `created_at` and the next id of
  each table (`records.dfy`). Its operations are pure functions:
  - creating a user (`users.dfy`);
  - get-or-create of a conversation through the symmetric `between` lookup,
    lookup by id, the per-user conversation index with `last_message`, and
    dependent destroy (`conversations.dfy`);
  - saving and listing messages (`messages.dfy`).
  Every operation is proved to keep the store's invariant `Valid`.
- **The controllers.** `messages_controller.dfy` and
  `conversations_controller.dfy` read request parameters the way Rails
  does, apart from JSON parameter wrapping (see Left out):
  - `require` and `permit`;
  - the integer cast of ids: a blank string is nil, other text goes through
    Ruby's `to_i`; `index` compares a present blank `conversation_id` with
    NULL, which matches no row;
  - body, then query string, then route parameters, the last binding
    winning.
  A message create returns the new state and the exact ordered list of
  `(topic, payload)` broadcasts it emits (`broadcasts.dfy`).
- **Topic names.** `conversation_<id>`, `chat_channel` and `user_<id>`, as
  the controller publishes on them and the two channels subscribe to them
  (`topics.dfy`).
- **Routing.** `routes.dfy` covers the route table, the query string and the
  parameter merge. `server.dfy` covers request handling end to end.
- **The client.** `api.ts` request paths and bodies (`api.dfy`). The
  sidebar's unread set, partner choice, existing-conversation search and
  contacts (`chat_list.dfy`). The chat pane's sent/received
  classification, header partner, append on push, subscription switching and
  send guard (`chat_area.dfy`).
- **Agreement.** `agreement.dfy` joins the two sides. Each request the
  client builds reaches the intended action with the parameters that action
  reads. The topic a client subscribes to is the one the server publishes
  on. The client's derived state follows the server's:
  - an appended push equals a refetch;
  - the input is cleared exactly when the message was stored;
  - a notice marks a conversation unread for the other participant only;
  - the client's existing-conversation pick is the server's get-or-create
    answer.

Ids on the client are the decimal strings of the server's ids
(`Decimal.Show`). JavaScript and Ruby whitespace differ, so `text.dfy` keeps
both: Ruby `blank?` uses Unicode White_Space, and JavaScript `trim` also
strips U+FEFF but not U+0085.

Where the code and its documentation differ, the model follows the code:
- `between` is symmetric, but the uniqueness validation only covers the
  ordered pair (`Conversations.ValidationAdmitsReversedPair`).
- A `user_id` or `conversation_id` naming no row passes validation, because
  both references are optional. It is then refused by the database foreign
  key, which the model answers with status 500.

## Model

| member | source | states |
|---|---|---|
| Messages.InRoom | backend/app/controllers/messages_controller.rb:4-8 | a message is listed iff it is in the store and its conversation is the requested one (nil for the global room); listing keeps time order |
| Messages.ListMessages | backend/app/controllers/messages_controller.rb:4-8 | the listing holds exactly the room's messages and is ordered by `created_at` |
| Messages.ListMessagesExact | backend/app/controllers/messages_controller.rb:4-8 | in an ascending store the listing is the room's messages in store order, strictly ascending, never mixing rooms |
| MessagesController.Index | backend/app/controllers/messages_controller.rb:3-10 | index lists exactly the messages whose conversation is the cast `conversation_id` parameter, or the global room without one; a present blank `conversation_id` is compared with NULL and lists nothing |
| MessagesController.BlankRoomListsNothing | backend/app/controllers/messages_controller.rb:3-16 | a blank `conversation_id` lists nothing on index, while create assigns nil and posts to the global room |
| MessagesController.IndexAscending | backend/app/controllers/messages_controller.rb:4-8 | in a valid store index is strictly ascending by creation time |
| MessagesController.Create | backend/app/controllers/messages_controller.rb:12-35 | 201 iff a message was created; a missing `message` hash answers 400 (JSON parameter wrapping is left out); with the hash present, a message is created iff its permitted content is present and not blank and the cast `user_id` and room, when given, name existing rows; the created message carries that content, that `user_id`, the route's room, the next id and the clock; a failure changes nothing and broadcasts nothing; a success appends the one message, changes no user or conversation, and emits exactly the room broadcast followed by the notices |
| MessagesController.BlankContentRefused | backend/app/controllers/messages_controller.rb:13-16 | missing or blank content is answered 422 with no row and no broadcast |
| MessagesController.CreateNotifiesBothParticipants | backend/app/controllers/messages_controller.rb:17-29 | in a valid store a conversation message is published on `conversation_<id>` then noticed to `user_<sender>` then `user_<recipient>` with the same payload; a global message only on `chat_channel`; the store stays valid |
| MessagesController.BodyCannotChooseConversation | backend/app/controllers/messages_controller.rb:39-41 | a `conversation_id` inside the `message` hash changes nothing: only `content` and `user_id` are permitted |
| Messages.Save | backend/app/models/message.rb:1-5 | saving succeeds iff the content is present and non-blank and each given reference names a row; the row gets the next id and the current clock and is appended |
| Messages.SavePreservesValid | backend/app/models/message.rb:1-5 | a successful save keeps every store invariant |
| Messages.SaveAppendsToRoom | backend/test/controllers/messages_controller_test.rb:13-19 | a save grows the store by exactly one, appends the message to its room's listing and leaves every other room's listing unchanged |
| Agreement.ContentOnlyMessageSaved | frontend/src/test/api.test.ts:26-46 | a message with content but no author or conversation is saved with status 201 |
| Agreement.AnonymousGlobalMessageCreated | frontend/src/test/api.test.ts:26-46 | a POST to `/messages` with only content is answered 201 with that message, authorless and in the global room |
| Broadcasts.Announce | backend/app/controllers/messages_controller.rb:17-29 | one to three broadcasts: first the message on its room's topic; the two notices exactly when the message has a conversation and it was found |
| Broadcasts.ConversationFanOut | backend/app/controllers/messages_controller.rb:17-29 | the conversation topic gets the message once; each participant's topic gets the notice once (twice for a self-chat); the global room and other users get nothing |
| Broadcasts.SingleBroadcast | backend/app/controllers/messages_controller.rb:19-21 | a global message, or one whose conversation is not found, is published once and notifies no user |
| Broadcasts.UserTopicsCarryNotices | backend/app/controllers/messages_controller.rb:22-28 | personal topics carry only conversation notices whose sender is the message's author |
| Broadcasts.OnAppend | backend/app/controllers/messages_controller.rb:17-29 | what a topic receives from consecutive publications is the concatenation, in order |
| Topics.ChatChannelStreams | backend/app/channels/chat_channel.rb:2-8 | a subscription streams from exactly one topic, `chat_channel` iff no conversation id is given |
| Topics.UserChannelStreams | backend/app/channels/user_channel.rb:2-6 | a subscription streams from one topic with a user id and from none without |
| Topics.ChatSubscriptionReaches | backend/app/channels/chat_channel.rb:3-4 | a conversation subscription reaches `conversation_<c>` iff its parameter is the decimal of c |
| Topics.UserSubscriptionReaches | backend/app/channels/user_channel.rb:3-4 | a user subscription reaches `user_<u>` iff its parameter is the decimal of u |
| Topics.FamiliesDisjoint | backend/app/controllers/messages_controller.rb:18 | conversation topics, user topics and the global room never coincide |
| Topics.ConversationTopicInjective | backend/app/controllers/messages_controller.rb:18 | distinct conversations have distinct topics |
| Topics.UserTopicInjective | backend/app/controllers/messages_controller.rb:27-28 | distinct users have distinct topics |
| Agreement.RoomSubscriberHearsMessage | backend/app/channels/chat_channel.rb:3-7 | the topic a room subscription streams from is the one create publishes the room's messages on, and it receives the new message exactly once |
| Agreement.ParticipantSidebarMarksUnread | backend/app/channels/user_channel.rb:3-4 | the other participant's `user_<id>` subscription hears the notice, and their sidebar marks the conversation unread |
| Agreement.AuthorSidebarUnchanged | frontend/src/components/chat/ChatList.tsx:99-104 | the author's own notices leave the author's unread set unchanged |
| Agreement.NoticesMarkUnread | frontend/src/components/chat/ChatList.tsx:99-104 | each notice of a conversation message marks the conversation unread for a participant who did not write it |
| Conversations.Between | backend/app/models/conversation.rb:8-11 | a conversation is in `between(a, b)` iff it joins a and b in either orientation; empty iff none does |
| Conversations.BetweenSymmetric | backend/app/models/conversation.rb:8-11 | `between(a, b)` and `between(b, a)` are the same sequence |
| Conversations.BetweenAtMostOne | backend/app/models/conversation.rb:8-11 | with at most one row per unordered pair, `between` has at most one element |
| Conversations.CreateConversation | backend/app/models/conversation.rb:2-6 | a row is created iff both users exist and the ordered pair is not taken; it gets the next id |
| Conversations.ValidationAdmitsReversedPair | backend/app/models/conversation.rb:6 | the validation accepts the reversed pair of an existing row, while get-or-create returns the existing row instead |
| Conversations.GetOrCreate | backend/app/controllers/conversations_controller.rb:17-25 | an existing pair returns `between.first` with the store unchanged; otherwise exactly one row for the given ordered pair is appended |
| Conversations.GetOrCreatePreservesValid | backend/app/controllers/conversations_controller.rb:17-25 | get-or-create keeps every store invariant |
| Conversations.GetOrCreateKeepsPairsUnique | backend/app/controllers/conversations_controller.rb:17-25 | sequential get-or-create never duplicates an unordered pair |
| Conversations.GetOrCreateFailsOnlyOnUnknownUser | backend/app/controllers/conversations_controller.rb:17-25 | in a valid store get-or-create fails iff an id is missing or names no user |
| Conversations.GetOrCreateLeavesOnePair | backend/app/controllers/conversations_controller.rb:17-25 | afterwards `between` holds exactly the returned conversation |
| Conversations.GetOrCreateSymmetric | backend/app/controllers/conversations_controller.rb:18-22 | `create(a, b)` then `create(b, a)` returns the same conversation and changes nothing the second time |
| ConversationsController.Create | backend/app/controllers/conversations_controller.rb:17-25 | 200 iff both cast ids are present and the pair already has a row or both users exist; the answered row joins the pair and is stored; when `between` has rows, the first is answered and nothing changes; otherwise the new row has the next id and the pair in the given order and is appended, users and messages untouched; a failure answers 422 and changes nothing |
| Conversations.ShowConversation | backend/app/controllers/conversations_controller.rb:27-34 | found iff the id is given and names a row, which is returned; otherwise not found |
| ConversationsController.Show | backend/app/controllers/conversations_controller.rb:27-34 | 200 with the stored row whose id is the cast `id` parameter, or 404 exactly when there is none; nothing changes |
| Conversations.ListFor | backend/app/controllers/conversations_controller.rb:4-15 | every entry involves the user and has a message, every such conversation is listed, ids strictly ascend (each at most once); no user lists nothing |
| Conversations.ListForCarriesLastMessage | backend/app/controllers/conversations_controller.rb:11-14 | each entry carries a `last_message` summarising one of its messages |
| Conversations.ListedAreSentOrReceived | backend/app/models/user.rb:3-4 | the listed rows are the user's sent or received conversations that have messages |
| Conversations.LastMessage | backend/app/models/conversation.rb:13-23 | nil iff the conversation has no messages, else the four-field summary of a message with the greatest `created_at` |
| Agreement.LastMessageIsNewest | backend/app/models/conversation.rb:13-23 | `last_message` is the summary of the last message in the conversation's ascending listing |
| Conversations.Destroy | backend/app/models/conversation.rb:4 | destroying a conversation removes exactly it and exactly its messages, keeping users and the order invariants |
| Conversations.DestroyPreservesValid | backend/app/models/conversation.rb:4 | no message is left pointing at the destroyed row |
| Users.CreateUser | backend/app/models/user.rb:5 | creation fails iff the username is missing, blank or taken; otherwise the user gets the next id |
| Users.CreateUserPreservesValid | backend/app/models/user.rb:5 | user creation keeps usernames unique and every invariant |
| Users.UsernameRegisteredOnce | backend/app/models/user.rb:5 | registering the same username twice fails the second time |
| Users.MessagesOf | backend/app/models/user.rb:2 | exactly the messages whose `user_id` is the user |
| Users.ConversationsSent | backend/app/models/user.rb:3 | exactly the conversations whose sender is the user |
| Users.ConversationsReceived | backend/app/models/user.rb:4 | exactly the conversations whose recipient is the user |
| Records.InitialValid | backend/app/models/message.rb:1-5 | the empty store satisfies every invariant |
| Records.ConversationIdUnique | backend/app/models/conversation.rb:1-3 | in a valid store a conversation id names one row |
| Params.Lookup | backend/app/controllers/messages_controller.rb:14 | absent iff no binding of the key; otherwise the value of a binding of it |
| Params.LookupConcat | backend/app/controllers/messages_controller.rb:14 | parameters merged later override earlier ones key by key |
| Params.Require | backend/app/controllers/messages_controller.rb:40 | `require` succeeds iff the key holds a non-empty hash, else reports the missing key |
| Params.Permitted | backend/app/controllers/messages_controller.rb:40 | only listed keys with scalar values pass |
| Routes.Match | frontend/src/lib/api.ts:6-9 | any matched member path is `/conversations/<segment>` binding `id`, any messages path is `/messages` or the nested path binding `conversation_id`, and GET reaches exactly the read actions |
| Routes.MatchNested | frontend/src/lib/api.ts:78-80 | a nested messages path reaches the messages actions with its segment as `conversation_id` |
| Routes.MatchMember | frontend/src/lib/api.ts:19 | `/conversations/<segment>` reaches `show` with its segment as `id` |
| Routes.QuerySingle | frontend/src/lib/api.ts:27 | a single `key=value` query string yields exactly that binding |
| Routes.Dispatch | backend/app/controllers/messages_controller.rb:14 | without a query string the request sees the body's parameters followed by the path's |
| Routes.QueryBeatsBody | backend/app/controllers/messages_controller.rb:14 | a key the route does not bind is read from the query string when the query binds it, and from the body otherwise |
| Routes.PathParamsWin | backend/app/controllers/messages_controller.rb:14 | the route's parameters cannot be overridden by the body or the query |
| Server.Handle | backend/app/controllers/messages_controller.rb:3-36 | reads never change the store or broadcast; a changed store comes only from a successful POST |
| Api.NullishDiffersFromFalsy | frontend/src/lib/api.ts:1-4 | the nullish chain differs from a falsy-fallback chain exactly when `VITE_API_BASE_URL` is set but empty and `VITE_API_URL` is non-empty, and then keeps the empty string |
| Api.EmptyBaseUrlIsKept | frontend/src/lib/api.ts:1-4 | an empty base URL is kept rather than falling through |
| Api.Url | frontend/src/lib/api.ts:7-11 | the fetched URL is the base followed by exactly the request path |
| Api.UrlDeterminesPath | frontend/src/lib/api.ts:7-11 | under one base URL, two calls fetch the same URL exactly when their paths agree, so stripping the base recovers the routed path |
| Api.MessagesPath | frontend/src/lib/api.ts:7-9 | the nested path for a truthy conversation id, else `/messages` |
| Api.ReadAndWriteSamePath | frontend/src/lib/api.ts:78-80 | `sendMessage` posts to the path `fetchMessages` reads |
| Api.Settle | frontend/src/lib/api.ts:12-15 | a call returns the body iff the status is 2xx, else throws "Network response was not ok" |
| Agreement.FetchMessagesReachesIndex | frontend/src/lib/api.ts:6-16 | `fetchMessages(c)` is answered 200 with conversation c's listing, and without an id with the global room's |
| Agreement.SendMessageReachesCreate | frontend/src/lib/api.ts:73-93 | `sendMessage` reaches create with the route's room and the body's content and author; the answer is 2xx exactly when the store saves that message |
| Agreement.FetchConversationsReachesIndex | frontend/src/lib/api.ts:26-32 | `fetchConversations(u)` is answered with u's conversation index |
| Agreement.CreateConversationReachesGetOrCreate | frontend/src/lib/api.ts:34-49 | `createConversation(a, b)` is answered 2xx exactly when get-or-create of (a, b) succeeds, with its conversation and store |
| Agreement.ConversationBodyRead | backend/app/controllers/conversations_controller.rb:38-40 | the top-level `sender_id` and `recipient_id` of the client body cast back to the two ids |
| Agreement.FetchConversationReachesShow | frontend/src/lib/api.ts:18-24 | `fetchConversation(c)` is ok exactly when conversation c exists, and then returns it |
| Agreement.InputClearedIffSaved | frontend/src/components/chat/ChatArea.tsx:219-230 | a non-blank input is sent and is cleared exactly when the server stored it (non-blank to Ruby, author and conversation exist) |
| Agreement.ExistingChatIsServersChoice | frontend/src/components/chat/ChatList.tsx:123-132 | when the client finds the pair among its listed conversations, it opens the conversation the server's get-or-create returns, with nothing added |
| Agreement.LiveViewMatchesRefetch | frontend/src/components/chat/ChatArea.tsx:189-202 | after a create, the open chat with the pushed message appended equals the formatted refetch of the room |
| ChatList.OnNotice | frontend/src/components/chat/ChatList.tsx:94-107 | a notice with a truthy conversation id from another sender adds that id and bumps the version; any other notice changes nothing; every notice reloads |
| ChatList.OwnNoticeIgnored | frontend/src/components/chat/ChatList.tsx:100 | a notice sent by the current user leaves the unread set unchanged |
| ChatList.MarkRead | frontend/src/components/chat/ChatList.tsx:166-170 | the id is removed, and the version moves iff the id was present |
| ChatList.SelectEffect | frontend/src/components/chat/ChatList.tsx:172-176 | after the effect the selected chat is not unread; it never adds ids |
| ChatList.Settle | frontend/src/components/chat/ChatList.tsx:172-176 | re-running the select effect reaches a fixed point where the open chat is read |
| ChatList.ReceiveKeepsSettled | frontend/src/components/chat/ChatList.tsx:94-107 | receiving a notice keeps the open chat read, and marks any other conversation from another sender unread |
| ChatList.Click | frontend/src/components/chat/ChatList.tsx:250-253 | clicking a listed chat selects it and leaves it read |
| ChatList.ChatPartner | frontend/src/components/chat/ChatList.tsx:154-161 | the recipient without a current user or when the current user's id string is the sender's, otherwise the sender |
| ChatList.PartnerIsTheOtherParticipant | frontend/src/components/chat/ChatList.tsx:154-161 | in a valid store the partner of a two-person conversation is the stored participant who is not the current user |
| ChatList.FindExisting | frontend/src/components/chat/ChatList.tsx:123-129 | the first listed conversation joining the two ids in either orientation; none iff no listed conversation does |
| ChatList.FindExistingSymmetric | frontend/src/components/chat/ChatList.tsx:123-129 | the search gives the same answer with the two ids swapped |
| ChatList.Contacts | frontend/src/components/chat/ChatList.tsx:58-62 | exactly the fetched users whose id string differs from the current user's |
| ChatList.ContactsAreOthers | frontend/src/components/chat/ChatList.tsx:58-62 | with a decimal id the contacts are exactly the other users |
| ChatArea.Classify | frontend/src/components/chat/ChatArea.tsx:162 | "sent" iff the author id equals the parsed current user id; a null author is received |
| ChatArea.SentIffMine | frontend/src/components/chat/ChatArea.tsx:192-193 | for a decimal current id, "sent" iff the message's `user_id` is that id |
| ChatArea.FormatAll | frontend/src/components/chat/ChatArea.tsx:159-171 | formatting keeps the count and the order, element by element |
| ChatArea.FormatKeepsIdentity | frontend/src/components/chat/ChatArea.tsx:161 | bubble ids coincide iff the message ids do |
| ChatArea.Push | frontend/src/components/chat/ChatArea.tsx:189-202 | a push appends one bubble at the end and leaves earlier bubbles, the input and the subscription unchanged |
| ChatArea.PushExtendsFetch | frontend/src/components/chat/ChatArea.tsx:189-202 | pushing after a fetch equals formatting the fetched list with the message appended |
| ChatArea.Open | frontend/src/components/chat/ChatArea.tsx:126-207 | with a current user the list is reset to empty; with a selected chat the pane ends subscribed to it |
| ChatArea.SwitchKeepsOneSubscription | frontend/src/components/chat/ChatArea.tsx:182-212 | switching chats never holds two live subscriptions at any point of its operations, because the old one is dropped before the new one is made; it resets the list and leaves exactly the selected room subscribed |
| ChatArea.Partner | frontend/src/components/chat/ChatArea.tsx:141-146 | the header's partner is the rendered recipient when the conversation's `sender_id` reads as the current user's id, else the rendered sender |
| ChatArea.TeardownReleases | frontend/src/components/chat/ChatArea.tsx:209-212 | teardown leaves no live subscription |
| ChatArea.SendRequest | frontend/src/components/chat/ChatArea.tsx:219-223 | nothing is sent iff the trimmed input is empty, there is no user or no selected chat; otherwise the untrimmed input goes to the chat's path |
| ChatArea.AfterSend | frontend/src/components/chat/ChatArea.tsx:222-229 | the input is cleared on an ok response and unchanged when the call throws |
| Text.TrimEmptyIffJsBlank | frontend/src/components/chat/ChatArea.tsx:220 | `trim` yields empty iff every character is JavaScript whitespace |
| Text.BlankNotionsDiffer | backend/app/models/message.rb:4 | Ruby presence and JavaScript trim disagree on U+0085 and U+FEFF |
| Decimal.ParseShow | frontend/src/components/chat/ChatArea.tsx:162 | parsing an id's decimal string gives back the id |
| Decimal.ShowInjective | frontend/src/components/chat/ChatList.tsx:100 | two ids have the same decimal string iff they are equal |
| Decimal.ToIShow | backend/app/controllers/messages_controller.rb:14 | Ruby's `to_i` reads an id's decimal string back as the id |
| Params.CastId | backend/app/controllers/messages_controller.rb:14 | the cast is nil exactly for a missing, null, hash or blank value, and keeps numbers |
| Params.CastShownId | backend/app/controllers/messages_controller.rb:14 | an id sent as its decimal string is cast back to the id |
| Params.CastLetterText | backend/app/controllers/messages_controller.rb:5 | text that starts with a letter is cast to 0, an id no row has |
| MessagesController.TextRoomNamesNoConversation | backend/app/controllers/messages_controller.rb:3-16 | a room named by text such as `abc` lists nothing, and a create with present content fails on the foreign key with 500 instead of posting to the global room |
| Agreement.PaneAndSidebarAgreeOnPartner | frontend/src/components/chat/ChatArea.tsx:141-146 | the pane's header and the sidebar name the same partner, the stored participant who is not the current user |

## Left out
- MessagesController.Create: Rails' JSON parameter wrapping is not modelled. With it on, the default for new Rails apps, a JSON body without a `message` key has its `content`, `user_id` and `conversation_id` copied under `message`, so such a request is created (201) where the model answers 400. The 400 holds for non-JSON bodies and for apps with wrapping turned off. The client always sends the `message` hash, so the request-agreement results do not depend on this.

- ActionCable transport: delivery, connection lifecycle and the absence of replay are not modelled. Only the topic a subscription names and the ordered publications of a create are.
- The channels' `unsubscribed` hooks are empty, so there is nothing to model.
- Concurrent get-or-create: there is no lock and no unordered-pair unique index. Only sequential requests are modelled.
- `as_json` shapes, `includes`, timestamps as times, `toLocaleTimeString`, rendering, scrolling, tabs and loading flags are not modelled.
- Login, the sidebar and mobile header components, the index page and the auth context (local storage) are not part of this model.
- The `onMessageSent` callback of the chat pane is not modelled.
- `UsersController` and `config/routes.rb` are not part of this model.
  - `Users.CreateUser` models the `User` model's validations only.
  - `Server.Handle` answers nothing for the users endpoints.
  - The route table is the conventional resource layout the client's paths use.
- Routes.Match: a `.format` suffix, percent-decoding and other HTTP methods are not modelled. A segment containing `.` does not match.
- Routes.Query: repeated keys and `key[]` array syntax are not modelled.
- Params.CastId: a negative `to_i` result (`"-3"`) is read as 0. Neither names a row, because ids start at 1. Ruby's casts of `true` and `false`, and of non-natural JSON numbers, are not modelled, because the parameter values have no such forms.
- Conversations.ListFor: the ascending id order is the model's choice. The query uses `distinct` with no `ORDER BY`, so the database picks the order.
- ChatList.ParseInt: JavaScript `parseInt` of a non-canonical id (`"7x"`, `" 7"`) is read as NaN.
- ChatArea.Classify: the current user's id is read by the same strict parse in place of `parseInt`, so `"7x"` classifies every message as received.
- MessagesController.Index: a hash-valued `conversation_id` is read as absent and lists the global room. Rails does not read such a value as an id.
- Conversations.ListFor: models the intended filter, the user's sent or received conversations that have messages. It does not model how Rails treats an `or` between a joined and an unjoined relation.
- Params.Require: a `message` value that is a non-empty string or a JSON number is treated as missing (400). Rails returns such a value from `require` and then fails on `permit` (500).
- Records.StatusOf: validation errors collapse to one attribute, because error message texts are not modelled.
- The database foreign-key failure for an unknown `user_id` or `conversation_id` is modelled as status 500. Rails raises an exception there, answered by its default error page.
- Server.Handle: a failed `create!` is answered with status 422, following Rails' default rescue of `RecordInvalid`.

=== FILE: agreement.dfy ===
/** Where the client and the server meet: the requests `api.ts` builds reach
    the controller actions with the parameters they read, the topics the
    channels subscribe to are the ones the controller publishes on, and the
    client's derived state follows what the server did. Client ids are the
    decimal strings of the server's numeric ids. */
module Agreement {
  import opened Wrappers
  import opened Records
  import opened Params
  import Decimal
  import Text
  import Topics
  import Routes
  import Messages
  import Users
  import Conversations
  import Broadcasts
  import MessagesController
  import ConversationsController
  import Server
  import Api
  import ChatList
  import ChatArea

  /** A server id as the client holds it. */
  function Id(n: nat): (r: string)
    ensures Decimal.Parse(r) == Some(n)
  {
    Decimal.ParseShow(n);
    Decimal.Show(n)
  }

  /** An id string is a valid path segment and query value. */
  lemma IdIsPlain(n: nat)
    ensures Routes.IsSegment(Id(n))
    ensures '&' !in Id(n) && '=' !in Id(n) && '?' !in Id(n)
  {
    var s := Id(n);
    forall i | 0 <= i < |s| ensures s[i] !in {'/', '.', '?', '&', '='} {
      assert Decimal.IsDigit(s[i]);
    }
  }

  /** The messages path of a room has no query string. */
  lemma MessagesPathPlain(n: nat)
    ensures '?' !in Api.MessagesPath(Some(Id(n)))
    ensures Api.MessagesPath(Some(Id(n))) == Routes.Collection + Id(n) + Routes.Nested
  {
    IdIsPlain(n);
    var p := Api.MessagesPath(Some(Id(n)));
    assert p == "/conversations/" + Id(n) + "/messages";
    forall i | 0 <= i < |p| ensures p[i] != '?' {
      if 15 <= i < 15 + |Id(n)| { assert p[i] == Id(n)[i - 15]; }
    }
  }

  /** A room's messages path routes to the messages actions with the room
      bound last, after the body. */
  lemma RoomPathDispatch(verb: Verb, n: nat, body: Params)
    ensures Routes.Dispatch(verb, Api.MessagesPath(Some(Id(n))), body)
         == Some((Routes.OnCollection(verb, Routes.MessagesIndex, Routes.MessagesCreate),
                  body + [("conversation_id", JStr(Id(n)))]))
  {
    MessagesPathPlain(n);
    IdIsPlain(n);
    Routes.MatchNested(verb, Id(n));
  }

  /** The global messages path routes to the messages actions with only the body. */
  lemma GlobalPathDispatch(verb: Verb, body: Params)
    ensures Routes.Dispatch(verb, Api.MessagesPath(None), body)
         == Some((Routes.OnCollection(verb, Routes.MessagesIndex, Routes.MessagesCreate), body))
  {
    assert Api.MessagesPath(None) == "/messages";
    assert '?' !in "/messages" by {
      forall i | 0 <= i < 9 ensures "/messages"[i] != '?' {}
    }
    Routes.MatchCollections(verb);
    assert body + [] == body;
  }

  /** `fetchMessages(id)` reaches `MessagesController#index` for that
      conversation, and without an id the global room. */
  lemma FetchMessagesReachesIndex(s: State, c: Option<nat>)
    ensures var req := Api.FetchMessages(if c.Some? then Some(Id(c.value)) else None);
      Server.Handle(s, req.verb, req.path, req.body)
        == Some(Server.Response(s, 200, Server.MessageList(Messages.ListMessages(s, c)), []))
  {
    match c {
      case Some(n) =>
        RoomPathDispatch(Get, n, []);
        var p: Params := [] + [("conversation_id", JStr(Id(n)))];
        CastShownId(n);
        assert MessagesController.Room(p) == Some(n);
      case None =>
        GlobalPathDispatch(Get, []);
        assert MessagesController.Room([]) == None;
    }
  }

  /** The room as the client names it. */
  function RoomId(c: Option<nat>): Option<string> {
    if c.Some? then Some(Id(c.value)) else None
  }

  /** The parameters `MessagesController#create` sees for a `sendMessage` call. */
  function SentParams(content: string, me: nat, c: Option<nat>): Params {
    Api.SendMessage(content, Id(me), RoomId(c)).body + if c.Some? then [("conversation_id", JStr(Id(c.value)))] else []
  }

  /** The client's `message` hash permits exactly its content and author. */
  lemma MessageFieldsRead(content: string, me: nat)
    ensures var fs := [("content", JStr(content)), ("user_id", JStr(Id(me)))];
      && CastText(Permitted(fs, MessagesController.MessageKeys, "content")) == Some(content)
      && CastId(Permitted(fs, MessagesController.MessageKeys, "user_id")) == Some(me)
  {
    var first := [("content", JStr(content))];
    assert [] + first == first;
    assert first + [("user_id", JStr(Id(me)))] == [("content", JStr(content)), ("user_id", JStr(Id(me)))];
    LookupAppend(first, "user_id", JStr(Id(me)), "content");
    LookupAppend(first, "user_id", JStr(Id(me)), "user_id");
    LookupAppend([], "content", JStr(content), "content");
    CastShownId(me);
  }

  /** The parameters of a `sendMessage` call hold the client's `message`
      hash and the room of the path. */
  lemma SentParamsLookup(content: string, me: nat, c: Option<nat>)
    ensures var fs := [("content", JStr(content)), ("user_id", JStr(Id(me)))];
      && Require(SentParams(content, me, c), "message") == Ok(fs)
      && MessagesController.Room(SentParams(content, me, c)) == c
  {
    var fs := [("content", JStr(content)), ("user_id", JStr(Id(me)))];
    var body := [("message", JObj(fs))];
    assert Api.SendMessage(content, Id(me), RoomId(c)).body == body;
    var p := SentParams(content, me, c);
    if c.Some? {
      var bound := ("conversation_id", JStr(Id(c.value)));
      assert p == body + [bound];
      assert Lookup(p, "message") == Some(JObj(fs)) by {
        LookupAppend(body, bound.0, bound.1, "message");
        LookupAppend([], "message", JObj(fs), "message");
        assert [] + body == body;
      }
      assert Lookup(p, "conversation_id") == Some(JStr(Id(c.value))) by {
        LookupAppend(body, bound.0, bound.1, "conversation_id");
      }
      CastShownId(c.value);
    } else {
      assert p == body;
      assert Lookup(p, "message") == Some(JObj(fs)) by {
        LookupAppend([], "message", JObj(fs), "message");
        assert [] + body == body;
      }
      assert Lookup(p, "conversation_id") == None by {
        LookupAppend([], "message", JObj(fs), "conversation_id");
        assert [] + body == body;
      }
    }
  }

  /** The client's message body yields the content and author the controller permits. */
  lemma SentParamsRead(content: string, me: nat, c: Option<nat>)
    ensures var p := SentParams(content, me, c);
      var fs := [("content", JStr(content)), ("user_id", JStr(Id(me)))];
      && Require(p, "message") == Ok(fs)
      && CastText(Permitted(fs, MessagesController.MessageKeys, "content")) == Some(content)
      && CastId(Permitted(fs, MessagesController.MessageKeys, "user_id")) == Some(me)
      && MessagesController.Room(p) == c
  {
    MessageFieldsRead(content, me);
    SentParamsLookup(content, me, c);
  }

  /** The controller's answer to the client's message body, in terms of the store's save. */
  lemma CreateFromSentParams(s: State, content: string, me: nat, c: Option<nat>)
    ensures var r := MessagesController.Create(s, SentParams(content, me, c));
      var saved := Messages.Save(s, Some(content), Some(me), c);
      && (r.created.Some? <==> saved.Ok?)
      && (saved.Ok? ==> r.state == saved.value.0 && r.created == Some(saved.value.1) && r.status == 201)
      && (saved.Err? ==> r.state == s && r.broadcasts == [] && !Api.IsOk(r.status))
  {
    SentParamsRead(content, me, c);
  }

  /** A request routed to `create` is answered by the controller. */
  lemma HandleCreate(s: State, url: string, body: Params, p: Params)
    ensures Routes.Dispatch(Post, url, body) == Some((Routes.MessagesCreate, p)) ==>
      var r := MessagesController.Create(s, p);
      Server.Handle(s, Post, url, body)
        == Some(Server.Response(r.state, r.status, if r.created.Some? then Server.MessageBody(r.created.value) else Server.ErrorBody, r.broadcasts))
  {
  }

  /** `sendMessage(content, me, room)` reaches `MessagesController#create`
      with the room from the path and the content and author from the body:
      the server answers 2xx exactly when the store saves that message. */
  lemma SendMessageReachesCreate(s: State, content: string, me: nat, c: Option<nat>)
    ensures var req := Api.SendMessage(content, Id(me), RoomId(c));
      var resp := Server.Handle(s, req.verb, req.path, req.body);
      var saved := Messages.Save(s, Some(content), Some(me), c);
      && resp.Some?
      && (Api.IsOk(resp.value.status) <==> saved.Ok?)
      && (saved.Ok? ==> resp.value.state == saved.value.0 && resp.value.body == Server.MessageBody(saved.value.1))
      && (saved.Err? ==> resp.value.state == s && resp.value.broadcasts == [])
  {
    var req := Api.SendMessage(content, Id(me), RoomId(c));
    assert Routes.Dispatch(Post, req.path, req.body) == Some((Routes.MessagesCreate, SentParams(content, me, c))) by {
      if c.Some? {
        RoomPathDispatch(Post, c.value, req.body);
      } else {
        GlobalPathDispatch(Post, req.body);
        assert req.body + [] == req.body;
      }
    }
    var r := MessagesController.Create(s, SentParams(content, me, c));
    var resp := Server.Handle(s, req.verb, req.path, req.body);
    assert resp == Some(Server.Response(r.state, r.status, if r.created.Some? then Server.MessageBody(r.created.value) else Server.ErrorBody, r.broadcasts)) by {
      HandleCreate(s, req.path, req.body, SentParams(content, me, c));
    }
    CreateFromSentParams(s, content, me, c);
    ReplyAnswersSave(s, resp, r, Messages.Save(s, Some(content), Some(me), c));
  }

  /** The response to a create reply reports the save it made. */
  lemma ReplyAnswersSave(s: State, resp: Option<Server.Response>, r: MessagesController.Reply, saved: Result<(State, Message), Error>)
    requires resp == Some(Server.Response(r.state, r.status, if r.created.Some? then Server.MessageBody(r.created.value) else Server.ErrorBody, r.broadcasts))
    requires r.created.Some? <==> saved.Ok?
    requires saved.Ok? ==> r.state == saved.value.0 && r.created == Some(saved.value.1) && r.status == 201
    requires saved.Err? ==> r.state == s && r.broadcasts == [] && !Api.IsOk(r.status)
    ensures && resp.Some?
      && (Api.IsOk(resp.value.status) <==> saved.Ok?)
      && (saved.Ok? ==> resp.value.state == saved.value.0 && resp.value.body == Server.MessageBody(saved.value.1))
      && (saved.Err? ==> resp.value.state == s && resp.value.broadcasts == [])
  {
  }

  /** `handleSend` in an open chat: a non-blank (by `trim`) input is sent,
      and it is cleared exactly when the server stored the message, that is
      when Ruby also finds it non-blank and both references exist. */
  lemma InputClearedIffSaved(s: State, pane: ChatArea.Pane, me: nat, c: nat)
    requires Text.Trim(pane.input) != []
    ensures var req := ChatArea.SendRequest(pane.input, Some(Id(me)), Some(Id(c)));
      && req.Some?
      && var resp := Server.Handle(s, req.value.verb, req.value.path, req.value.body);
      && resp.Some?
      && (ChatArea.AfterSend(pane, resp.value.status).input == "" <==>
            !Text.Blank(pane.input) && UserExists(s.users, me) && ConversationExists(s.conversations, c))
  {
    assert Id(c) != "";
    SendMessageReachesCreate(s, pane.input, me, Some(c));
  }

  /** The conversations index path has no query mark and its query key
      neither `=` nor `&`. */
  lemma IndexLiteralsPlain()
    ensures '?' !in "/conversations"
    ensures '=' !in "user_id" && '&' !in "user_id"
  {
    forall i | 0 <= i < 14 ensures "/conversations"[i] != '?' {}
    forall i | 0 <= i < 7 ensures "user_id"[i] != '=' && "user_id"[i] != '&' {}
  }

  /** `/conversations?user_id=<id>` is the index with that one query parameter. */
  lemma ConversationsUrlDispatch(u: nat)
    ensures Routes.Dispatch(Get, Api.FetchConversations(Id(u)).path, [])
         == Some((Routes.ConversationsIndex, [("user_id", JStr(Id(u)))]))
  {
    var q := "user_id" + "=" + Id(u);
    var url := "/conversations" + "?" + q;
    IndexLiteralsPlain();
    assert Routes.Dispatch(Get, url, []) == Some((Routes.ConversationsIndex, [] + Routes.Query(q) + [])) by {
      Routes.DispatchWithQuery(Get, "/conversations", q, []);
      Routes.MatchCollections(Get);
    }
    assert Routes.Query(q) == [("user_id", JStr(Id(u)))] by {
      IdIsPlain(u);
      Routes.QuerySingle("user_id", Id(u));
    }
    assert [] + Routes.Query(q) + [] == Routes.Query(q);
  }

  /** A request routed to the conversations index is answered by the controller. */
  lemma HandleConversationsIndex(s: State, url: string, p: Params)
    requires Routes.Dispatch(Get, url, []) == Some((Routes.ConversationsIndex, p))
    ensures Server.Handle(s, Get, url, []) == Some(Server.Response(s, 200, Server.EntryList(ConversationsController.Index(s, p)), []))
  {
  }

  /** `fetchConversations(u)` reaches `ConversationsController#index` for `u`. */
  lemma FetchConversationsReachesIndex(s: State, u: nat)
    ensures var req := Api.FetchConversations(Id(u));
      Server.Handle(s, req.verb, req.path, req.body)
        == Some(Server.Response(s, 200, Server.EntryList(Conversations.ListFor(s, Some(u))), []))
  {
    ConversationsUrlDispatch(u);
    HandleConversationsIndex(s, Api.FetchConversations(Id(u)).path, [("user_id", JStr(Id(u)))]);
    LookupAppend([], "user_id", JStr(Id(u)), "user_id");
    assert [] + [("user_id", JStr(Id(u)))] == [("user_id", JStr(Id(u)))];
    CastShownId(u);
  }

  /** The parameters `ConversationsController#create` sees for `createConversation`. */
  lemma ConversationBodyRead(a: nat, b: nat)
    ensures var p := Api.CreateConversation(Id(a), Id(b)).body;
      CastId(Lookup(p, "sender_id")) == Some(a) && CastId(Lookup(p, "recipient_id")) == Some(b)
  {
    var first := [("sender_id", JStr(Id(a)))];
    assert [] + first == first;
    LookupAppend([], "sender_id", JStr(Id(a)), "sender_id");
    LookupAppend(first, "recipient_id", JStr(Id(b)), "sender_id");
    LookupAppend(first, "recipient_id", JStr(Id(b)), "recipient_id");
    assert Api.CreateConversation(Id(a), Id(b)).body == first + [("recipient_id", JStr(Id(b)))];
    CastShownId(a);
    CastShownId(b);
  }

  /** `createConversation(a, b)` reaches get-or-create for the pair. */
  lemma CreateConversationReachesGetOrCreate(s: State, a: nat, b: nat)
    ensures var req := Api.CreateConversation(Id(a), Id(b));
      var resp := Server.Handle(s, req.verb, req.path, req.body);
      var g := Conversations.GetOrCreate(s, Some(a), Some(b));
      && resp.Some?
      && (Api.IsOk(resp.value.status) <==> g.Ok?)
      && (g.Ok? ==> resp.value.state == g.value.0 && resp.value.body == Server.ConversationBody(g.value.1))
      && (g.Err? ==> resp.value.state == s)
  {
    var req := Api.CreateConversation(Id(a), Id(b));
    CollectionPostDispatch(req.body);
    HandleConversationsCreate(s, req.path, req.body, req.body);
    ConversationBodyRead(a, b);
  }

  /** A POST to `/conversations` routes to `create` with the body as parameters. */
  lemma CollectionPostDispatch(body: Params)
    ensures Routes.Dispatch(Post, "/conversations", body) == Some((Routes.ConversationsCreate, body))
  {
    Routes.MatchCollections(Post);
    assert '?' !in "/conversations" by {
      forall i | 0 <= i < 14 ensures "/conversations"[i] != '?' {}
    }
    assert body + [] == body;
  }

  /** A request routed to conversation `create` is answered by the controller. */
  lemma HandleConversationsCreate(s: State, url: string, body: Params, p: Params)
    requires Routes.Dispatch(Post, url, body) == Some((Routes.ConversationsCreate, p))
    ensures var r := ConversationsController.Create(s, p);
      Server.Handle(s, Post, url, body)
        == Some(Server.Response(r.state, r.status, if r.conversation.Some? then Server.ConversationBody(r.conversation.value) else Server.ErrorBody, []))
  {
  }

  /** `fetchConversation(c)` reaches `show`: 2xx with the conversation when
      it exists, not ok otherwise. */
  lemma FetchConversationReachesShow(s: State, c: nat)
    ensures var req := Api.FetchConversation(Id(c));
      var resp := Server.Handle(s, req.verb, req.path, req.body);
      && resp.Some? && resp.value.state == s
      && (Api.IsOk(resp.value.status) <==> ConversationExists(s.conversations, c))
      && (Api.IsOk(resp.value.status) ==>
            (resp.value.body.ConversationBody? &&
             resp.value.body.conversation in s.conversations && resp.value.body.conversation.id == c))
  {
    var req := Api.FetchConversation(Id(c));
    IdIsPlain(c);
    Routes.MatchMember(Id(c));
    assert req.path == Routes.Collection + Id(c);
    assert '?' !in req.path by {
      forall i | 0 <= i < |req.path| ensures req.path[i] != '?' {
        if 15 <= i { assert req.path[i] == Id(c)[i - 15]; }
      }
    }
    var p := [] + [("id", JStr(Id(c)))];
    assert Routes.Dispatch(Get, req.path, []) == Some((Routes.ConversationsShow, p));
    LookupAppend([], "id", JStr(Id(c)), "id");
    CastShownId(c);
  }

  /** The chat pane's header names the same partner as the sidebar: for a
      two-person conversation of the current user in a valid store, the
      stored participant who is not the current user. */
  lemma PaneAndSidebarAgreeOnPartner(s: State, c: Conversation, me: nat)
    requires Valid(s)
    requires c in s.conversations
    requires Involves(c, me) && c.senderId != c.recipientId
    ensures var p := ChatArea.Partner(Id(me), c, FindUser(s.users, c.senderId), FindUser(s.users, c.recipientId));
      && p == ChatList.ChatPartner(Some(Id(me)), Conversations.EntryOf(s, c))
      && p.Some? && p.value in s.users && p.value.id != me && Involves(c, p.value.id)
  {
    ChatList.PartnerIsTheOtherParticipant(s, c, me);
  }

  /** When `handleStartChat` finds the pair in the listed conversations, it
      opens the conversation the server's get-or-create would have returned,
      and the server would have added nothing. */
  lemma ExistingChatIsServersChoice(s: State, me: nat, other: nat)
    requires PairUnique(s.conversations)
    ensures var found := ChatList.FindExisting(Conversations.ListFor(s, Some(me)), Id(me), Id(other));
      found.Some? ==> Conversations.GetOrCreate(s, Some(me), Some(other)) == Ok((s, found.value.conversation))
  {
    var found := ChatList.FindExisting(Conversations.ListFor(s, Some(me)), Id(me), Id(other));
    if found.Some? {
      var e := found.value;
      FoundIsStored(s, me, other);
      var between := Conversations.Between(s.conversations, me, other);
      Conversations.BetweenAtMostOne(s.conversations, me, other);
      Conversations.SingletonOf(between, e.conversation);
    }
  }

  /** A conversation the client finds for a pair is a stored row joining the pair. */
  lemma FoundIsStored(s: State, me: nat, other: nat)
    ensures var found := ChatList.FindExisting(Conversations.ListFor(s, Some(me)), Id(me), Id(other));
      found.Some? ==> found.value.conversation in s.conversations && Joins(found.value.conversation, me, other)
  {
    var es := Conversations.ListFor(s, Some(me));
    var found := ChatList.FindExisting(es, Id(me), Id(other));
    if found.Some? {
      var e := found.value;
      var i :| 0 <= i < |es| && es[i] == e;
      assert ChatList.Connects(e, Id(me), Id(other));
    }
  }

  /** What a `UserChannel` handler reads from a published payload. Only
      notices reach personal topics (`Broadcasts.UserTopicsCarryNotices`). */
  function NoticeOf(p: Broadcasts.Payload): ChatList.Notice {
    match p
    case ConversationUpdated(c, sender) => ChatList.Notice(Some(c), sender)
    case MessageCreated(_, _) => ChatList.Notice(None, None)
  }

  /** The sender of every notice is the message's author, so the author's
      own sidebar marks nothing unread. */
  lemma AuthorSidebarUnchanged(s: State, p: Params, a: nat, unread: ChatList.Unread)
    requires MessagesController.Create(s, p).created.Some?
    requires MessagesController.Create(s, p).created.value.userId == Some(a)
    ensures var r := MessagesController.Create(s, p);
      forall n :: n in Broadcasts.On(r.broadcasts, Topics.UserTopic(a)) ==>
        ChatList.OnNotice(unread, Id(a), NoticeOf(n)).0 == unread
  {
    var r := MessagesController.Create(s, p);
    var m := r.created.value;
    Broadcasts.UserTopicsCarryNotices(m, MessagesController.Author(r.state, m), MessagesController.FoundConversation(r.state, m), a);
  }

  /** "null" is not a decimal id. */
  lemma NullIsNotAnId(u: nat)
    ensures ChatList.JsString(None) != Id(u)
  {
    assert Decimal.IsDigit(Id(u)[0]);
  }

  /** One notice about conversation `c` from a sender other than `u` marks
      `c` unread in `u`'s sidebar. */
  lemma NoticeMarks(unread: ChatList.Unread, u: nat, c: nat, sender: Option<nat>)
    requires 1 <= c && sender != Some(u)
    ensures Id(c) in ChatList.OnNotice(unread, Id(u), NoticeOf(Broadcasts.ConversationUpdated(c, sender))).0.ids
  {
    if sender.Some? {
      Decimal.ShowInjective(sender.value, u);
    } else {
      NullIsNotAnId(u);
    }
  }

  /** The notices of a conversation's message mark it unread for every
      participant other than the author. */
  lemma NoticesMarkUnread(m: Message, author: Option<User>, c: Conversation, u: nat, unread: ChatList.Unread)
    requires m.conversationId == Some(c.id) && 1 <= c.id
    requires Involves(c, u) && m.userId != Some(u)
    ensures var heard := Broadcasts.On(Broadcasts.Announce(m, author, Some(c)), Topics.UserTopic(u));
      && heard != []
      && forall n :: n in heard ==> Id(c.id) in ChatList.OnNotice(unread, Id(u), NoticeOf(n)).0.ids
  {
    var notice := Broadcasts.ConversationUpdated(c.id, m.userId);
    var heard := Broadcasts.On(Broadcasts.Announce(m, author, Some(c)), Topics.UserTopic(u));
    assert heard == [notice] || heard == [notice, notice] by {
      Broadcasts.ConversationFanOut(m, author, c, c.senderId + c.recipientId + 1);
    }
    NoticeMarks(unread, u, c.id, m.userId);
  }

  /** In a valid store, `create` publishes the announcement for the
      message's own conversation row. */
  lemma CreateAnnouncesConversation(s: State, p: Params, c: Conversation)
    requires Valid(s)
    requires MessagesController.Create(s, p).created.Some?
    requires MessagesController.Create(s, p).created.value.conversationId == Some(c.id)
    requires c in s.conversations
    ensures 1 <= c.id
    ensures var r := MessagesController.Create(s, p); var m := r.created.value;
      r.broadcasts == Broadcasts.Announce(m, MessagesController.Author(r.state, m), Some(c))
  {
    var r := MessagesController.Create(s, p);
    var m := r.created.value;
    MessagesController.CreateNotifiesBothParticipants(s, p);
    var c' :| c' in s.conversations && c'.id == c.id &&
      r.broadcasts == Broadcasts.Announce(m, MessagesController.Author(r.state, m), Some(c'));
    ConversationIdUnique(s, c, c');
  }

  /** A message in a conversation reaches each other participant's personal
      topic, which their `UserChannel` subscription streams from, and marks
      the conversation unread in their sidebar. */
  lemma ParticipantSidebarMarksUnread(s: State, p: Params, c: Conversation, u: nat, unread: ChatList.Unread)
    requires Valid(s)
    requires MessagesController.Create(s, p).created.Some?
    requires MessagesController.Create(s, p).created.value.conversationId == Some(c.id)
    requires c in s.conversations && Involves(c, u)
    requires MessagesController.Create(s, p).created.value.userId != Some(u)
    ensures Topics.UserChannelStreams(Some(Id(u))) == [Topics.UserTopic(u)]
    ensures var r := MessagesController.Create(s, p);
      var heard := Broadcasts.On(r.broadcasts, Topics.UserTopic(u));
      && heard != []
      && forall n :: n in heard ==> Id(c.id) in ChatList.OnNotice(unread, Id(u), NoticeOf(n)).0.ids
  {
    Topics.UserSubscriptionReaches(Id(u), u);
    var r := MessagesController.Create(s, p);
    var m := r.created.value;
    CreateAnnouncesConversation(s, p, c);
    NoticesMarkUnread(m, MessagesController.Author(r.state, m), c, u, unread);
  }

  /** A room's subscription, named by the client's id string, streams from
      exactly the topic `create` publishes that room's messages on, and
      receives the new message there once. */
  lemma RoomSubscriberHearsMessage(s: State, p: Params)
    requires Valid(s)
    requires MessagesController.Create(s, p).created.Some?
    ensures var r := MessagesController.Create(s, p);
      var m := r.created.value;
      var topics := Topics.ChatChannelStreams(RoomId(m.conversationId));
      && topics == [Broadcasts.RoomTopic(m.conversationId)]
      && Broadcasts.On(r.broadcasts, topics[0]) == [Broadcasts.MessageCreated(m, MessagesController.Author(r.state, m))]
  {
    var r := MessagesController.Create(s, p);
    var m := r.created.value;
    var author := MessagesController.Author(r.state, m);
    MessagesController.CreateNotifiesBothParticipants(s, p);
    match m.conversationId {
      case Some(cid) =>
        Topics.ChatSubscriptionReaches(Id(cid), cid);
        var c :| c in s.conversations && c.id == cid && r.broadcasts == Broadcasts.Announce(m, author, Some(c));
        Broadcasts.ConversationFanOut(m, author, c, c.senderId + c.recipientId + 1);
      case None =>
        var b := Broadcasts.Broadcast(Topics.GlobalRoom, Broadcasts.MessageCreated(m, author));
        assert r.broadcasts == [] + [b];
        Broadcasts.OnAppend([], [b], Topics.GlobalRoom);
    }
  }

  /** The messages of a listing with their authors embedded, as sent. */
  function Wires(s: State, ms: seq<Message>): (r: seq<ChatArea.Wire>)
    ensures |r| == |ms|
    ensures forall i :: 0 <= i < |ms| ==> r[i] == ChatArea.Wire(ms[i], MessagesController.Author(s, ms[i]))
  {
    seq(|ms|, i requires 0 <= i < |ms| => ChatArea.Wire(ms[i], MessagesController.Author(s, ms[i])))
  }

  /** Appending a message to an ascending store extends its room's listing
      by exactly that message. */
  lemma ListingGains(s: State, s': State, m: Message)
    requires TimeAscending(s.messages) && TimeAscending(s'.messages)
    requires s'.messages == s.messages + [m]
    ensures Messages.ListMessages(s', m.conversationId) == Messages.ListMessages(s, m.conversationId) + [m]
  {
    Messages.ListMessagesExact(s, m.conversationId);
    Messages.ListMessagesExact(s', m.conversationId);
    Messages.InRoomAppend(s.messages, m, m.conversationId);
  }

  /** The wire form of a listing with one more message, over the same users. */
  lemma WiresAppend(s: State, s': State, before: seq<Message>, m: Message)
    requires s'.users == s.users
    ensures Wires(s', before + [m]) == Wires(s, before) + [ChatArea.Wire(m, MessagesController.Author(s', m))]
  {
  }

  /** Appending a message to an ascending store extends its room's
      formatted listing by exactly that message. */
  lemma AppendExtendsView(s: State, s': State, m: Message, me: string)
    requires TimeAscending(s.messages) && TimeAscending(s'.messages)
    requires s'.messages == s.messages + [m] && s'.users == s.users
    ensures ChatArea.FormatAll(me, Wires(s', Messages.ListMessages(s', m.conversationId)))
         == ChatArea.FormatAll(me, Wires(s, Messages.ListMessages(s, m.conversationId)) + [ChatArea.Wire(m, MessagesController.Author(s', m))])
  {
    ListingGains(s, s', m);
    WiresAppend(s, s', Messages.ListMessages(s, m.conversationId), m);
  }

  /** An open chat that appends each pushed message shows what fetching the
      room again would: the pushed message is the one the listing gained. */
  lemma LiveViewMatchesRefetch(s: State, p: Params, me: string, input: string, subscription: Option<string>)
    requires Valid(s)
    requires MessagesController.Create(s, p).created.Some?
    ensures var r := MessagesController.Create(s, p);
      var m := r.created.value;
      var pane := ChatArea.Pane(ChatArea.FormatAll(me, Wires(s, Messages.ListMessages(s, m.conversationId))), input, subscription);
      ChatArea.Push(pane, me, ChatArea.Wire(m, MessagesController.Author(r.state, m))).messages
        == ChatArea.FormatAll(me, Wires(r.state, Messages.ListMessages(r.state, m.conversationId)))
  {
    var r := MessagesController.Create(s, p);
    var m := r.created.value;
    assert TimeAscending(r.state.messages) by {
      MessagesController.CreateNotifiesBothParticipants(s, p);
    }
    AppendExtendsView(s, r.state, m, me);
    var w := ChatArea.Wire(m, MessagesController.Author(r.state, m));
    ChatArea.PushExtendsFetch(me, Wires(s, Messages.ListMessages(s, m.conversationId)), w, input, subscription);
  }

  /** In a strictly time-ascending listing, a message no older than any
      other is the last one. */
  lemma LatestIsLast(l: seq<Message>, m: Message)
    requires TimeAscending(l)
    requires m in l
    requires forall x :: x in l ==> x.createdAt <= m.createdAt
    ensures m == l[|l| - 1]
  {
    var k :| 0 <= k < |l| && l[k] == m;
    assert l[|l| - 1].createdAt <= m.createdAt;
  }

  /** The newest message of a room is the last of the room's listing in an
      ascending store. */
  lemma RoomNewestIsLast(s: State, c: nat, m: Message)
    requires TimeAscending(s.messages)
    requires m in s.messages && m.conversationId == Some(c)
    requires forall x :: x in s.messages && x.conversationId == Some(c) ==> x.createdAt <= m.createdAt
    ensures var l := Messages.ListMessages(s, Some(c)); l != [] && m == l[|l| - 1]
  {
    Messages.ListMessagesExact(s, Some(c));
    var l := Messages.ListMessages(s, Some(c));
    assert m in l;
    LatestIsLast(l, m);
  }

  /** A conversation's `last_message` is the last message of its ascending
      listing. */
  lemma LastMessageIsNewest(s: State, c: nat)
    requires TimeAscending(s.messages)
    requires Conversations.HasMessages(s.messages, c)
    ensures var l := Messages.ListMessages(s, Some(c));
      l != [] && Conversations.LastMessage(s.messages, c) == Some(Summary(l[|l| - 1]))
  {
    var room := Conversations.RoomMessages(s.messages, c);
    assert room != [] by {
      var x :| x in s.messages && x.conversationId == Some(c);
      assert x in room;
    }
    var m := Conversations.Latest(room).value;
    assert Conversations.LastMessage(s.messages, c) == Some(Summary(m));
    RoomNewestIsLast(s, c, m);
  }

  /** A `message` hash with only non-blank content is saved in the global
      room without an author: a message needs neither. */
  lemma ContentOnlyMessageSaved(s: State, content: string)
    requires !Text.Blank(content)
    ensures var r := MessagesController.Create(s, [("message", JObj([("content", JStr(content))]))]);
      r.status == 201 && r.created == Some(Message(s.nextMessageId, content, None, None, s.clock))
  {
    var fs := [("content", JStr(content))];
    var body := [("message", JObj(fs))];
    LookupAppend([], "message", JObj(fs), "message");
    LookupAppend([], "message", JObj(fs), "conversation_id");
    LookupAppend([], "content", JStr(content), "content");
    LookupAppend([], "content", JStr(content), "user_id");
    assert [] + body == body;
    assert [] + fs == fs;
  }

  /** A POST to `/messages` whose `message` hash has only non-blank content
      is answered 201 with a message that has no author and no conversation. */
  lemma AnonymousGlobalMessageCreated(s: State, content: string)
    requires !Text.Blank(content)
    ensures var resp := Server.Handle(s, Post, Api.MessagesPath(None), [("message", JObj([("content", JStr(content))]))]);
      && resp.Some? && resp.value.status == 201
      && resp.value.body == Server.MessageBody(Message(s.nextMessageId, content, None, None, s.clock))
  {
    var body := [("message", JObj([("content", JStr(content))]))];
    GlobalPathDispatch(Post, body);
    HandleCreate(s, Api.MessagesPath(None), body, body);
    ContentOnlyMessageSaved(s, content);
  }
}

=== FILE: api.dfy ===
/** The frontend's REST client: the base URL, the request each call makes
    (method, path, JSON body), and the not-ok-throws rule. The network is
    left out; a call is the request it would send plus the status it gets. */
module Api {
  import opened Wrappers
  import opened Params
  import Decimal

  /** The two build-time variables the base URL may come from. */
  datatype Env = Env(baseUrl: Option<string>, apiUrl: Option<string>)

  /** `API_URL`: `VITE_API_BASE_URL ?? VITE_API_URL ?? ""`. Only an undefined
      variable falls through; an empty one is kept. */
  function ApiUrl(env: Env): (r: string)
    ensures env.baseUrl.Some? ==> r == env.baseUrl.value
    ensures env.baseUrl.None? && env.apiUrl.Some? ==> r == env.apiUrl.value
    ensures env.baseUrl.None? && env.apiUrl.None? ==> r == ""
  {
    match env.baseUrl
    case Some(b) => b
    case None => env.apiUrl.GetOr("")
  }

  /** An empty base URL is not nullish, so it wins over a set `VITE_API_URL`. */
  lemma EmptyBaseUrlIsKept(api: string)
    ensures ApiUrl(Env(Some(""), Some(api))) == ""
  {
  }

  /** The `||` chain the client does not use: there an empty variable falls
      through like an undefined one. */
  function FalsyApiUrl(env: Env): string {
    if env.baseUrl.Some? && env.baseUrl.value != "" then env.baseUrl.value
    else if env.apiUrl.Some? && env.apiUrl.value != "" then env.apiUrl.value
    else ""
  }

  /** `??` and `||` pick different base URLs exactly when `VITE_API_BASE_URL`
      is set but empty and `VITE_API_URL` is non-empty; `??` then keeps the
      empty string. */
  lemma NullishDiffersFromFalsy(env: Env)
    ensures ApiUrl(env) != FalsyApiUrl(env) <==>
      env.baseUrl == Some("") && env.apiUrl.Some? && env.apiUrl.value != ""
    ensures ApiUrl(env) != FalsyApiUrl(env) ==> ApiUrl(env) == "" && FalsyApiUrl(env) == env.apiUrl.value
  {
  }

  /** The request a call makes: method, path after the base URL, JSON body. */
  datatype Request = Request(verb: Verb, path: string, body: Params)

  /** The URL `fetch` is given. */
  function Url(env: Env, req: Request): (url: string)
    ensures |url| == |ApiUrl(env)| + |req.path|
    ensures url[..|ApiUrl(env)|] == ApiUrl(env)
    ensures url[|ApiUrl(env)|..] == req.path
  {
    ApiUrl(env) + req.path
  }

  /** Under one base URL, two calls fetch the same URL exactly when their
      paths agree: stripping the base gives back the path the server routes. */
  lemma UrlDeterminesPath(env: Env, a: Request, b: Request)
    ensures Url(env, a) == Url(env, b) <==> a.path == b.path
  {
    if Url(env, a) == Url(env, b) {
      assert a.path == Url(env, a)[|ApiUrl(env)|..];
    }
  }

  /** A JavaScript string used as a condition: false when undefined or empty. */
  predicate Truthy(s: Option<string>) {
    s.Some? && s.value != ""
  }

  /** The path `fetchMessages` and `sendMessage` share: the conversation's
      nested messages when given an id, else the global `/messages`. */
  function MessagesPath(conversationId: Option<string>): (path: string)
    ensures Truthy(conversationId) ==> path == "/conversations/" + conversationId.value + "/messages"
    ensures !Truthy(conversationId) ==> path == "/messages"
  {
    if Truthy(conversationId) then "/conversations/" + conversationId.value + "/messages" else "/messages"
  }

  function FetchMessages(conversationId: Option<string>): Request {
    Request(Get, MessagesPath(conversationId), [])
  }

  function FetchConversation(id: string): Request {
    Request(Get, "/conversations/" + id, [])
  }

  /** `fetchConversations`: the user id travels as the `user_id` query
      parameter, `/conversations?user_id=<userId>`, written in its parts. */
  function FetchConversations(userId: string): Request {
    Request(Get, "/conversations" + "?" + ("user_id" + "=" + userId), [])
  }

  /** `createConversation`: the ids go at the top level of the body. */
  function CreateConversation(senderId: string, recipientId: string): Request {
    Request(Post, "/conversations", [("sender_id", JStr(senderId)), ("recipient_id", JStr(recipientId))])
  }

  function FetchUsers(): Request {
    Request(Get, "/users", [])
  }

  /** `createUser`: `JSON.stringify` drops an undefined `avatar_url`. */
  function CreateUser(username: string, avatarUrl: Option<string>): Request {
    var fields := [("username", JStr(username))] + match avatarUrl case Some(a) => [("avatar_url", JStr(a))] case None => [];
    Request(Post, "/users", [("user", JObj(fields))])
  }

  /** `sendMessage`: content and author nested under `message`. */
  function SendMessage(content: string, userId: string, conversationId: Option<string>): Request {
    Request(Post, MessagesPath(conversationId), [("message", JObj([("content", JStr(content)), ("user_id", JStr(userId))]))])
  }

  /** Reading and writing a room use the same path. */
  lemma ReadAndWriteSamePath(content: string, userId: string, conversationId: Option<string>)
    ensures SendMessage(content, userId, conversationId).path == FetchMessages(conversationId).path
    ensures SendMessage(content, userId, conversationId).verb == Post && FetchMessages(conversationId).verb == Get
  {
  }

  /** `response.ok`: a status in the 2xx range. */
  predicate IsOk(status: nat) {
    200 <= status <= 299
  }

  const NotOk: string := "Network response was not ok"

  /** What a call yields: the parsed body, or the error it throws. */
  datatype Outcome<T> = Returned(body: T) | Threw(message: string)

  /** Every call returns the body of an ok response and throws otherwise. */
  function Settle<T>(status: nat, body: T): (r: Outcome<T>)
    ensures r.Returned? <==> IsOk(status)
    ensures r.Returned? ==> r.body == body
    ensures r.Threw? ==> r.message == NotOk
  {
    if IsOk(status) then Returned(body) else Threw(NotOk)
  }
}

=== FILE: broadcasts.dfy ===
/** What `MessagesController#create` publishes after a message is saved: the
    message on its room's topic, then a conversation-updated notice on each
    participant's personal topic. */
module Broadcasts {
  import opened Wrappers
  import opened Records
  import Topics

  /** A published payload: the new message with its author embedded
      (`as_json(include: :user)`), or the notice that a conversation changed. */
  datatype Payload =
    | MessageCreated(message: Message, user: Option<User>)
    | ConversationUpdated(conversationId: nat, senderId: Option<nat>)

  datatype Broadcast = Broadcast(topic: string, payload: Payload)

  /** The topic of a message's room: its conversation's, or the global room's. */
  function RoomTopic(room: Option<nat>): string {
    match room
    case Some(c) => Topics.ConversationTopic(c)
    case None => Topics.GlobalRoom
  }

  /** The broadcasts for the saved message `m`, given the author row and the
      conversation `Conversation.find_by(id: m.conversation_id)` returned. */
  function Announce(m: Message, author: Option<User>, found: Option<Conversation>): (r: seq<Broadcast>)
    ensures 1 <= |r| <= 3
    ensures r[0] == Broadcast(RoomTopic(m.conversationId), MessageCreated(m, author))
    ensures |r| == 3 <==> m.conversationId.Some? && found.Some?
    ensures |r| == 3 ==>
      && r[1] == Broadcast(Topics.UserTopic(found.value.senderId), ConversationUpdated(found.value.id, m.userId))
      && r[2] == Broadcast(Topics.UserTopic(found.value.recipientId), r[1].payload)
    ensures |r| != 3 ==> |r| == 1
  {
    var first := Broadcast(RoomTopic(m.conversationId), MessageCreated(m, author));
    if m.conversationId.Some? && found.Some? then
      var notice := ConversationUpdated(found.value.id, m.userId);
      [first,
       Broadcast(Topics.UserTopic(found.value.senderId), notice),
       Broadcast(Topics.UserTopic(found.value.recipientId), notice)]
    else
      [first]
  }

  /** The payloads published on one topic, in publication order: what a
      connection streaming from that topic is sent. */
  function On(bs: seq<Broadcast>, topic: string): (r: seq<Payload>)
    ensures |r| <= |bs|
    ensures forall p :: p in r <==> exists b :: b in bs && b.topic == topic && b.payload == p
  {
    if bs == [] then []
    else (if bs[0].topic == topic then [bs[0].payload] else []) + On(bs[1..], topic)
  }

  /** Publishing two batches one after the other delivers them in that order. */
  lemma {:induction false} OnAppend(xs: seq<Broadcast>, ys: seq<Broadcast>, topic: string)
    ensures On(xs + ys, topic) == On(xs, topic) + On(ys, topic)
  {
    if xs != [] {
      assert (xs + ys)[1..] == xs[1..] + ys;
      OnAppend(xs[1..], ys, topic);
    } else {
      assert xs + ys == ys;
    }
  }

  /** The three broadcasts of a conversation message, topic by topic. */
  lemma OnThree(b0: Broadcast, b1: Broadcast, b2: Broadcast, topic: string)
    ensures On([b0, b1, b2], topic) ==
      (if b0.topic == topic then [b0.payload] else []) +
      (if b1.topic == topic then [b1.payload] else []) +
      (if b2.topic == topic then [b2.payload] else [])
  {
    assert [b0, b1, b2] == [b0] + [b1] + [b2];
    OnAppend([b0] + [b1], [b2], topic);
    OnAppend([b0], [b1], topic);
  }

  /** Fan-out of a conversation message: the conversation topic gets the
      message once; each participant's topic gets the notice once (twice when
      a user talks to themself); the global room and every other user topic
      get nothing. */
  lemma ConversationFanOut(m: Message, author: Option<User>, c: Conversation, other: nat)
    requires m.conversationId == Some(c.id)
    requires other != c.senderId && other != c.recipientId
    ensures var bs := Announce(m, author, Some(c));
      var notice := ConversationUpdated(c.id, m.userId);
      && On(bs, Topics.ConversationTopic(c.id)) == [MessageCreated(m, author)]
      && On(bs, Topics.GlobalRoom) == []
      && On(bs, Topics.UserTopic(other)) == []
      && (c.senderId != c.recipientId ==>
            On(bs, Topics.UserTopic(c.senderId)) == [notice] && On(bs, Topics.UserTopic(c.recipientId)) == [notice])
      && (c.senderId == c.recipientId ==> On(bs, Topics.UserTopic(c.senderId)) == [notice, notice])
  {
    Topics.FamiliesDisjoint(c.id, c.senderId);
    Topics.FamiliesDisjoint(c.id, c.recipientId);
    Topics.FamiliesDisjoint(c.id, other);
    Topics.UserTopicInjective(c.senderId, c.recipientId);
    Topics.UserTopicInjective(other, c.senderId);
    Topics.UserTopicInjective(other, c.recipientId);
    var bs := Announce(m, author, Some(c));
    assert bs == [bs[0], bs[1], bs[2]];
    OnThree(bs[0], bs[1], bs[2], Topics.ConversationTopic(c.id));
    OnThree(bs[0], bs[1], bs[2], Topics.GlobalRoom);
    OnThree(bs[0], bs[1], bs[2], Topics.UserTopic(other));
    OnThree(bs[0], bs[1], bs[2], Topics.UserTopic(c.senderId));
    OnThree(bs[0], bs[1], bs[2], Topics.UserTopic(c.recipientId));
  }

  /** A message in the global room, or one whose conversation was not found,
      is published once, on its room topic, and notifies no user. */
  lemma SingleBroadcast(m: Message, author: Option<User>, found: Option<Conversation>, u: nat)
    requires m.conversationId.None? || found.None?
    ensures Announce(m, author, found) == [Broadcast(RoomTopic(m.conversationId), MessageCreated(m, author))]
    ensures On(Announce(m, author, found), Topics.UserTopic(u)) == []
  {
    match m.conversationId {
      case Some(c) => Topics.FamiliesDisjoint(c, u);
      case None => Topics.FamiliesDisjoint(0, u);
    }
  }

  /** Personal topics only ever carry conversation notices, each naming the
      message's author as its sender. */
  lemma UserTopicsCarryNotices(m: Message, author: Option<User>, found: Option<Conversation>, u: nat)
    ensures forall p :: p in On(Announce(m, author, found), Topics.UserTopic(u)) ==>
      p.ConversationUpdated? && p.senderId == m.userId
  {
    var bs := Announce(m, author, found);
    match m.conversationId {
      case Some(c) => Topics.FamiliesDisjoint(c, u);
      case None => Topics.FamiliesDisjoint(0, u);
    }
    forall p | p in On(bs, Topics.UserTopic(u)) ensures p.ConversationUpdated? && p.senderId == m.userId {
      var b :| b in bs && b.topic == Topics.UserTopic(u) && b.payload == p;
      var k :| 0 <= k < |bs| && bs[k] == b;
      assert k != 0;
    }
  }
}

=== FILE: chat_area.dfy ===
/** The message pane: how server messages become bubbles, the append on a
    live push, the subscription switch when the selected chat changes, and
    the send guard. Rendering, times and scrolling are left out. */
module ChatArea {
  import opened Wrappers
  import opened Records
  import Decimal
  import Text
  import Api

  datatype Kind = Sent | Received

  /** A displayed message. */
  datatype Bubble = Bubble(id: string, kind: Kind, content: string, userId: Option<string>, user: Option<User>)

  /** A message as the server sends it, with its author embedded. */
  datatype Wire = Wire(message: Message, user: Option<User>)

  /** `user_id === parseInt(currentUser.id)`: a null author, or an id that
      does not parse, is never the current user. */
  function Classify(me: string, userId: Option<nat>): (k: Kind)
    ensures k == Sent <==> userId.Some? && Decimal.Parse(me) == Some(userId.value)
  {
    match userId
    case Some(u) => if Decimal.Parse(me) == Some(u) then Sent else Received
    case None => Received
  }

  /** A bubble is "sent" exactly when its author is the user with that id. */
  lemma SentIffMine(me: nat, userId: Option<nat>)
    ensures Classify(Decimal.Show(me), userId) == Sent <==> userId == Some(me)
  {
    Decimal.ParseShow(me);
  }

  function Format(me: string, w: Wire): (b: Bubble)
    ensures b.content == w.message.content && b.user == w.user
    ensures b.kind == Classify(me, w.message.userId)
  {
    Bubble(Decimal.Show(w.message.id), Classify(me, w.message.userId), w.message.content,
           match w.message.userId case Some(u) => Some(Decimal.Show(u)) case None => None,
           w.user)
  }

  /** Formatting a fetched list keeps its length and order. */
  function FormatAll(me: string, ws: seq<Wire>): (r: seq<Bubble>)
    ensures |r| == |ws|
    ensures forall i :: 0 <= i < |ws| ==> r[i] == Format(me, ws[i])
  {
    if ws == [] then [] else [Format(me, ws[0])] + FormatAll(me, ws[1..])
  }

  /** Two bubbles from messages with different ids have different ids. */
  lemma FormatKeepsIdentity(me: string, a: Wire, b: Wire)
    ensures Format(me, a).id == Format(me, b).id <==> a.message.id == b.message.id
  {
    Decimal.ShowInjective(a.message.id, b.message.id);
  }

  /** The pane's state: the bubbles shown, the input box, and the room of the
      live subscription. */
  datatype Pane = Pane(messages: seq<Bubble>, input: string, subscription: Option<string>)

  /** Side effects the pane asks for, in order. */
  datatype Op = LoadConversation(id: string) | LoadMessages(id: string) | Subscribe(room: string) | Unsubscribe(room: string)

  /** `received`: a pushed message goes at the end. */
  function Push(p: Pane, me: string, w: Wire): (r: Pane)
    ensures |r.messages| == |p.messages| + 1
    ensures r.messages[..|p.messages|] == p.messages
    ensures r.messages[|p.messages|] == Format(me, w)
    ensures r.input == p.input && r.subscription == p.subscription
  {
    p.(messages := p.messages + [Format(me, w)])
  }

  /** A push after a fetch shows what a later fetch would. */
  lemma {:induction false} PushExtendsFetch(me: string, ws: seq<Wire>, w: Wire, input: string, sub: Option<string>)
    ensures Push(Pane(FormatAll(me, ws), input, sub), me, w).messages == FormatAll(me, ws + [w])
  {
    var r := FormatAll(me, ws + [w]);
    assert |r| == |ws| + 1;
    forall i | 0 <= i < |r| ensures r[i] == (FormatAll(me, ws) + [Format(me, w)])[i] {
      if i < |ws| { assert (ws + [w])[i] == ws[i]; } else { assert (ws + [w])[i] == w; }
    }
  }

  /** The header's chat partner, from the fetched conversation and the
      `sender` and `recipient` rendered with it: the recipient when the
      conversation's `sender_id` reads as the current user's id, compared as
      strings, and the sender otherwise. */
  function Partner(me: string, c: Conversation, sender: Option<User>, recipient: Option<User>): (r: Option<User>)
    ensures r == sender || r == recipient
    ensures me == Decimal.Show(c.senderId) ==> r == recipient
    ensures me != Decimal.Show(c.senderId) ==> r == sender
  {
    if Decimal.Show(c.senderId) == me then recipient else sender
  }

  /** The effect cleanup: drop the live subscription. */
  function Teardown(p: Pane): (r: (Pane, seq<Op>))
    ensures r.0.subscription.None?
    ensures r.0.messages == p.messages && r.0.input == p.input
    ensures p.subscription.Some? ==> r.1 == [Unsubscribe(p.subscription.value)]
    ensures p.subscription.None? <==> r.1 == []
  {
    match p.subscription
    case Some(room) => (p.(subscription := None), [Unsubscribe(room)])
    case None => (p, [])
  }

  /** The effect body for the current user and selected chat: clear the
      list, and for a selected chat load it, drop any subscription still
      held, and subscribe to the chat's room. */
  function Open(p: Pane, me: Option<string>, selected: Option<string>): (r: (Pane, seq<Op>))
    ensures me.None? ==> r == (p, [])
    ensures me.Some? ==> r.0.messages == [] && r.0.input == p.input
    ensures me.Some? && Api.Truthy(selected) ==> r.0.subscription == selected
    ensures me.Some? && !Api.Truthy(selected) ==> r == (p.(messages := []), [])
  {
    if me.None? then (p, [])
    else if !Api.Truthy(selected) then (p.(messages := []), [])
    else
      var id := selected.value;
      var drop := match p.subscription case Some(prev) => [Unsubscribe(prev)] case None => [];
      (Pane([], p.input, Some(id)), [LoadConversation(id), LoadMessages(id)] + drop + [Subscribe(id)])
  }

  /** A change of user or selected chat: the previous run's cleanup, then the
      effect body. */
  function Switch(p: Pane, me: Option<string>, selected: Option<string>): (r: (Pane, seq<Op>))
  {
    var (p1, ops1) := Teardown(p);
    var (p2, ops2) := Open(p1, me, selected);
    (p2, ops1 + ops2)
  }

  /** The rooms with a live subscription after running `ops` from `live`. */
  function Apply(live: multiset<string>, ops: seq<Op>): (r: multiset<string>)
    decreases |ops|
  {
    if ops == [] then live
    else
      var next := match ops[0]
        case Subscribe(room) => live + multiset{room}
        case Unsubscribe(room) => live - multiset{room}
        case _ => live;
      Apply(next, ops[1..])
  }

  lemma {:induction false} ApplyConcat(live: multiset<string>, xs: seq<Op>, ys: seq<Op>)
    ensures Apply(live, xs + ys) == Apply(Apply(live, xs), ys)
    decreases |xs|
  {
    if xs == [] {
      assert xs + ys == ys;
    } else {
      assert (xs + ys)[1..] == xs[1..] + ys;
      var next := match xs[0]
        case Subscribe(room) => live + multiset{room}
        case Unsubscribe(room) => live - multiset{room}
        case _ => live;
      ApplyConcat(next, xs[1..], ys);
    }
  }

  /** The pane's record of its subscription matches the live ones. */
  predicate Tracks(p: Pane, live: multiset<string>) {
    match p.subscription
    case Some(room) => live == multiset{room}
    case None => live == multiset{}
  }

  /** Loading a chat and subscribing to its room, from no live subscription,
      leaves exactly that room subscribed. */
  lemma {:induction false} OpenSubscribesOnce(id: string)
    ensures Apply(multiset{}, [LoadConversation(id), LoadMessages(id), Subscribe(id)]) == multiset{id}
  {
    var ops := [LoadConversation(id), LoadMessages(id), Subscribe(id)];
    assert ops[1..] == [LoadMessages(id), Subscribe(id)];
    assert ops[1..][1..] == [Subscribe(id)];
    assert Apply(multiset{}, [Subscribe(id)]) == Apply(multiset{id}, []);
  }

  /** Switching chats never leaves two live subscriptions: the old one is
      dropped before the new one is made, the list starts empty, and only the
      selected chat's room stays subscribed. */
  lemma {:induction false} SwitchKeepsOneSubscription(p: Pane, live: multiset<string>, me: Option<string>, selected: Option<string>)
    requires Tracks(p, live)
    ensures var (p', ops) := Switch(p, me, selected);
      && Tracks(p', Apply(live, ops))
      && (me.Some? ==> p'.messages == [])
      && (p'.subscription.Some? <==> me.Some? && Api.Truthy(selected))
      && (p'.subscription.Some? ==> Apply(live, ops) == multiset{selected.value})
      && (forall k :: 0 <= k <= |ops| ==> |Apply(live, ops[..k])| <= 1)
  {
    var (p1, ops1) := Teardown(p);
    var (p2, ops2) := Open(p1, me, selected);
    var ops := ops1 + ops2;
    ApplyConcat(live, ops1, ops2);
    TeardownReleases(p, live);
    if me.Some? && Api.Truthy(selected) {
      assert ops2 == [LoadConversation(selected.value), LoadMessages(selected.value), Subscribe(selected.value)];
      OpenSubscribesOnce(selected.value);
    }
    forall k | 0 <= k <= |ops| ensures |Apply(live, ops[..k])| <= 1 {
      if k <= |ops1| {
        TeardownPrefixes(p, live, k);
        assert ops[..k] == ops1[..k];
      } else {
        assert ops[..k] == ops1 + ops2[..k - |ops1|];
        ApplyConcat(live, ops1, ops2[..k - |ops1|]);
        OpenPrefixes(p1, me, selected, k - |ops1|);
      }
    }
  }

  /** Every prefix of the cleanup holds at most the one tracked subscription. */
  lemma {:induction false} TeardownPrefixes(p: Pane, live: multiset<string>, k: nat)
    requires Tracks(p, live)
    requires k <= |Teardown(p).1|
    ensures |Apply(live, Teardown(p).1[..k])| <= 1
  {
    var ops := Teardown(p).1;
    if k == 0 {
      assert ops[..k] == [];
    } else {
      assert ops[..k] == ops;
      TeardownReleases(p, live);
    }
  }

  /** Run after a cleanup, every prefix of the effect body holds at most one
      subscription: the chat is loaded first and subscribed to last. */
  lemma {:induction false} OpenPrefixes(p: Pane, me: Option<string>, selected: Option<string>, j: nat)
    requires p.subscription.None?
    requires j <= |Open(p, me, selected).1|
    ensures |Apply(multiset{}, Open(p, me, selected).1[..j])| <= 1
  {
    var ops := Open(p, me, selected).1;
    if me.Some? && Api.Truthy(selected) {
      var id := selected.value;
      assert ops == [LoadConversation(id), LoadMessages(id), Subscribe(id)];
      if j == 3 {
        assert ops[..j] == ops;
        OpenSubscribesOnce(id);
      } else {
        LoadsSubscribeNothing(id, j);
      }
    } else {
      assert ops == [];
      assert ops[..j] == [];
    }
  }

  /** Loading a chat, before the subscription, leaves nothing subscribed. */
  lemma {:induction false} LoadsSubscribeNothing(id: string, j: nat)
    requires j < 3
    ensures Apply(multiset{}, [LoadConversation(id), LoadMessages(id), Subscribe(id)][..j]) == multiset{}
  {
    var loads := [LoadConversation(id), LoadMessages(id)];
    var ops := [LoadConversation(id), LoadMessages(id), Subscribe(id)];
    assert ops[..j] == loads[..j] by {
      assert forall k :: 0 <= k < j ==> ops[k] == loads[k];
    }
    LoadsKeep(multiset{}, loads[..j]);
  }

  /** Operations that only load data leave the live subscriptions as they are. */
  lemma {:induction false} LoadsKeep(live: multiset<string>, ops: seq<Op>)
    requires forall k :: 0 <= k < |ops| ==> !ops[k].Subscribe? && !ops[k].Unsubscribe?
    ensures Apply(live, ops) == live
    decreases |ops|
  {
    if ops != [] {
      LoadsKeep(live, ops[1..]);
    }
  }

  /** Unmounting drops every live subscription. */
  lemma TeardownReleases(p: Pane, live: multiset<string>)
    requires Tracks(p, live)
    ensures Apply(live, Teardown(p).1) == multiset{}
  {
    if p.subscription.Some? {
      assert Apply(live, Teardown(p).1) == Apply(live - multiset{p.subscription.value}, []);
    }
  }

  /** `handleSend`: nothing is sent for a blank input, without a current
      user, or without a selected chat; otherwise the input is sent as typed. */
  function SendRequest(input: string, me: Option<string>, selected: Option<string>): (r: Option<Api.Request>)
    ensures r.None? <==> Text.Trim(input) == [] || me.None? || !Api.Truthy(selected)
    ensures r.Some? ==> r.value == Api.SendMessage(input, me.value, selected)
  {
    if Text.Trim(input) == [] || me.None? || !Api.Truthy(selected) then None
    else Some(Api.SendMessage(input, me.value, selected))
  }

  /** Once the send settles: the input is cleared on an ok response and kept
      when the call throws. */
  function AfterSend(p: Pane, status: nat): (r: Pane)
    ensures r.input == "" <==> Api.IsOk(status) || p.input == ""
    ensures !Api.IsOk(status) ==> r == p
    ensures r.messages == p.messages && r.subscription == p.subscription
  {
    match Api.Settle(status, ())
    case Returned(_) => p.(input := "")
    case Threw(_) => p
  }
}

=== FILE: chat_list.dfy ===
/** The conversation sidebar: the unread set driven by `UserChannel`
    notices, `markRead` and the select effect, the partner shown for each
    conversation, the client-side search for an existing conversation, and
    the contacts list. The current user's id is a string, as the client
    stores it; ids from the server are compared through `String(...)`. */
module ChatList {
  import opened Wrappers
  import opened Records
  import Conversations
  import Decimal

  /** `String(x)` of a nullable number received in a payload. */
  function JsString(n: Option<nat>): (r: string)
    ensures n.Some? ==> r == Decimal.Show(n.value)
    ensures n.None? ==> r == "null"
  {
    match n
    case Some(v) => Decimal.Show(v)
    case None => "null"
  }

  /** A number used as a condition: false when missing or zero. */
  predicate TruthyId(n: Option<nat>) {
    n.Some? && n.value != 0
  }

  /** The fields of a `UserChannel` payload the handler reads. */
  datatype Notice = Notice(conversationId: Option<nat>, senderId: Option<nat>)

  /** The unread conversation ids (as strings) and the render counter bumped
      when the set changes. */
  datatype Unread = Unread(ids: set<string>, version: nat)

  const NoneUnread := Unread({}, 0)

  /** The `received` handler: a notice about a conversation from someone else
      marks that conversation unread. Every notice, relevant or not, also
      reloads the lists (the second component). */
  function OnNotice(u: Unread, me: string, n: Notice): (r: (Unread, bool))
    ensures r.1
    ensures TruthyId(n.conversationId) && JsString(n.senderId) != me ==>
      r.0.ids == u.ids + {Decimal.Show(n.conversationId.value)} && r.0.version == u.version + 1
    ensures !(TruthyId(n.conversationId) && JsString(n.senderId) != me) ==> r.0 == u
  {
    if TruthyId(n.conversationId) && JsString(n.senderId) != me then
      (Unread(u.ids + {Decimal.Show(n.conversationId.value)}, u.version + 1), true)
    else (u, true)
  }

  /** Own messages never mark anything unread. */
  lemma OwnNoticeIgnored(u: Unread, me: nat, c: nat)
    ensures OnNotice(u, Decimal.Show(me), Notice(Some(c), Some(me))).0 == u
  {
  }

  /** `markRead`: remove the id; the counter moves only if it was there. */
  function MarkRead(u: Unread, id: string): (r: Unread)
    ensures id !in r.ids
    ensures r.ids == u.ids - {id}
    ensures r.version == u.version <==> id !in u.ids
    ensures r.version == u.version || r.version == u.version + 1
  {
    if id in u.ids then Unread(u.ids - {id}, u.version + 1) else u
  }

  /** Marking read twice is marking read once. */
  lemma MarkReadIdempotent(u: Unread, id: string)
    ensures MarkRead(MarkRead(u, id), id) == MarkRead(u, id)
  {
  }

  /** A chat id used as a condition: false when null or empty. */
  predicate Selected(selected: Option<string>) {
    selected.Some? && selected.value != ""
  }

  /** The select effect, run whenever the selection or the counter changes. */
  function SelectEffect(u: Unread, selected: Option<string>): (r: Unread)
    ensures Selected(selected) ==> selected.value !in r.ids
    ensures r.ids <= u.ids
    ensures !Selected(selected) ==> r == u
  {
    if Selected(selected) then MarkRead(u, selected.value) else u
  }

  /** What the sidebar promises between renders: the open chat is not
      shown as unread. */
  predicate Settled(u: Unread, selected: Option<string>) {
    Selected(selected) ==> selected.value !in u.ids
  }

  /** Re-run the select effect until the counter stops moving: at most twice,
      since a second `markRead` of the same id changes nothing. */
  function Settle(u: Unread, selected: Option<string>): (r: Unread)
    ensures Settled(r, selected)
    ensures r.ids == if Selected(selected) then u.ids - {selected.value} else u.ids
    ensures SelectEffect(r, selected) == r
  {
    SelectEffect(u, selected)
  }

  /** A notice arriving while a chat is open: the handler runs, and if the
      counter moved the select effect runs. */
  function Receive(u: Unread, me: string, selected: Option<string>, n: Notice): (r: (Unread, bool))
    ensures r.1
  {
    var (u1, reload) := OnNotice(u, me, n);
    if u1.version != u.version then (Settle(u1, selected), reload) else (u1, reload)
  }

  /** Receiving a notice keeps the open chat read, and a notice from someone
      else about any other conversation leaves it unread. */
  lemma {:induction false} ReceiveKeepsSettled(u: Unread, me: string, selected: Option<string>, n: Notice)
    requires Settled(u, selected)
    ensures Settled(Receive(u, me, selected, n).0, selected)
    ensures TruthyId(n.conversationId) && JsString(n.senderId) != me &&
            !(Selected(selected) && selected.value == Decimal.Show(n.conversationId.value)) ==>
      Decimal.Show(n.conversationId.value) in Receive(u, me, selected, n).0.ids
    ensures Receive(u, me, selected, n).0.ids <= OnNotice(u, me, n).0.ids
  {
    var (u1, _) := OnNotice(u, me, n);
    if u1.version == u.version {
      assert u1 == u;
    }
  }

  /** Clicking a conversation in the list: mark it read, then select it. */
  function Click(u: Unread, id: string): (r: (Unread, Option<string>))
    ensures r.1 == Some(id)
    ensures Settled(r.0, r.1)
    ensures r.0.ids == u.ids - {id}
  {
    var u1 := MarkRead(u, id);
    (Settle(u1, Some(id)), Some(id))
  }

  /** `getChatPartner`: the other side of a conversation from the current
      user's point of view, compared as strings; without a current user the
      recipient. */
  function ChatPartner(me: Option<string>, e: Conversations.Entry): (r: Option<User>)
    ensures r == e.sender || r == e.recipient
    ensures me.None? ==> r == e.recipient
    ensures me.Some? && me.value == Decimal.Show(e.conversation.senderId) ==> r == e.recipient
    ensures me.Some? && me.value != Decimal.Show(e.conversation.senderId) ==> r == e.sender
  {
    match me
    case None => e.recipient
    case Some(id) => if Decimal.Show(e.conversation.senderId) == id then e.recipient else e.sender
  }

  /** In a valid store, the partner of a listed two-person conversation is the
      participant who is not the current user. */
  lemma PartnerIsTheOtherParticipant(s: State, c: Conversation, me: nat)
    requires Valid(s)
    requires c in s.conversations
    requires Involves(c, me) && c.senderId != c.recipientId
    ensures var p := ChatPartner(Some(Decimal.Show(me)), Conversations.EntryOf(s, c));
      p.Some? && p.value in s.users && p.value.id != me && Involves(c, p.value.id)
  {
    Decimal.ShowInjective(c.senderId, me);
    var e := Conversations.EntryOf(s, c);
    if c.senderId == me {
      assert e.recipient == FindUser(s.users, c.recipientId);
    } else {
      assert e.sender == FindUser(s.users, c.senderId);
    }
  }

  /** `parseInt` of a well-formed id string; anything else is NaN and
      compares unequal to every number. */
  function ParseInt(s: string): Option<nat> {
    Decimal.Parse(s)
  }

  /** Whether a listed conversation joins the two ids in either orientation. */
  predicate Connects(e: Conversations.Entry, me: string, other: string) {
    && ParseInt(me).Some? && ParseInt(other).Some?
    && Joins(e.conversation, ParseInt(me).value, ParseInt(other).value)
  }

  /** The existing-conversation search of `handleStartChat`: the first listed
      conversation joining the current user and the chosen contact. */
  function FindExisting(es: seq<Conversations.Entry>, me: string, other: string): (r: Option<Conversations.Entry>)
    ensures r.None? <==> forall e :: e in es ==> !Connects(e, me, other)
    ensures r.Some? ==> r.value in es && Connects(r.value, me, other)
    ensures r.Some? ==> es != [] && (Connects(es[0], me, other) ==> r.value == es[0])
  {
    if es == [] then None
    else if Connects(es[0], me, other) then Some(es[0])
    else FindExisting(es[1..], me, other)
  }

  /** The search is symmetric, like the server's `between`. */
  lemma {:induction false} FindExistingSymmetric(es: seq<Conversations.Entry>, a: nat, b: nat)
    ensures FindExisting(es, Decimal.Show(a), Decimal.Show(b)) == FindExisting(es, Decimal.Show(b), Decimal.Show(a))
  {
    Decimal.ParseShow(a);
    Decimal.ParseShow(b);
    if es != [] {
      FindExistingSymmetric(es[1..], a, b);
    }
  }

  /** The contacts tab: every fetched user except the current one, compared
      as strings, in fetched order. */
  function Contacts(users: seq<User>, me: string): (r: seq<User>)
    ensures forall x :: x in r <==> x in users && Decimal.Show(x.id) != me
    ensures |r| <= |users|
  {
    if users == [] then []
    else (if Decimal.Show(users[0].id) != me then [users[0]] else []) + Contacts(users[1..], me)
  }

  /** With a well-formed id, the contacts are exactly the other users. */
  lemma ContactsAreOthers(users: seq<User>, me: nat)
    ensures forall x :: x in Contacts(users, Decimal.Show(me)) <==> x in users && x.id != me
  {
    forall x | x in users {
      Decimal.ShowInjective(x.id, me);
    }
  }
}

=== FILE: conversations.dfy ===
/** The conversation directory: the `Conversation` model (`between`, the
    ordered-pair uniqueness validation, `last_message`, dependent destroy) and
    the operations `ConversationsController` builds on it. */
module Conversations {
  import opened Wrappers
  import opened Records
  import Users

  /** `Conversation.between(a, b)`: the conversations of the pair in either
      orientation, in id order. */
  function Between(cs: seq<Conversation>, a: nat, b: nat): (r: seq<Conversation>)
    ensures forall c :: c in r <==> c in cs && Joins(c, a, b)
    ensures r == [] <==> forall c :: c in cs ==> !Joins(c, a, b)
  {
    if cs == [] then []
    else (if Joins(cs[0], a, b) then [cs[0]] else []) + Between(cs[1..], a, b)
  }

  /** `between(a, b)` and `between(b, a)` denote the same rows in the same order. */
  lemma {:induction false} BetweenSymmetric(cs: seq<Conversation>, a: nat, b: nat)
    ensures Between(cs, a, b) == Between(cs, b, a)
  {
    if cs != [] {
      BetweenSymmetric(cs[1..], a, b);
    }
  }

  /** Where no unordered pair repeats, `between` finds at most one row. */
  lemma {:induction false} BetweenAtMostOne(cs: seq<Conversation>, a: nat, b: nat)
    requires PairUnique(cs)
    ensures |Between(cs, a, b)| <= 1
  {
    if cs != [] {
      BetweenAtMostOne(cs[1..], a, b);
      if Joins(cs[0], a, b) {
        forall c | c in cs[1..] ensures !Joins(c, a, b) {
          var k :| 0 <= k < |cs[1..]| && cs[1..][k] == c;
          assert cs[k + 1] == c;
          assert !Joins(cs[k + 1], cs[0].senderId, cs[0].recipientId);
        }
      }
    }
  }

  predicate OrderedPairTaken(cs: seq<Conversation>, a: nat, b: nat) {
    exists c :: c in cs && c.senderId == a && c.recipientId == b
  }

  /** `Conversation.create!`: sender and recipient are required references
      to existing users, and `sender_id` is unique in the scope of
      `recipient_id`, so only the same ORDERED pair is refused. */
  function CreateConversation(s: State, sender: Option<nat>, recipient: Option<nat>)
    : (r: Result<(State, Conversation), Error>)
    ensures r.Ok? <==>
      && sender.Some? && recipient.Some?
      && UserExists(s.users, sender.value) && UserExists(s.users, recipient.value)
      && !OrderedPairTaken(s.conversations, sender.value, recipient.value)
    ensures r.Err? ==> r.error.Invalid?
    ensures r.Ok? ==>
      && r.value.1 == Conversation(s.nextConversationId, sender.value, recipient.value)
      && r.value.0 == s.(conversations := s.conversations + [r.value.1],
                         nextConversationId := s.nextConversationId + 1)
  {
    if sender.None? || FindUser(s.users, sender.value).None? then Err(Invalid("sender"))
    else if recipient.None? || FindUser(s.users, recipient.value).None? then Err(Invalid("recipient"))
    else if OrderedPairTaken(s.conversations, sender.value, recipient.value) then Err(Invalid("sender_id"))
    else
      var c := Conversation(s.nextConversationId, sender.value, recipient.value);
      Ok((s.(conversations := s.conversations + [c], nextConversationId := s.nextConversationId + 1), c))
  }

  /** `ConversationsController#create`: the first row of `between` when there
      is one (the store unchanged), otherwise a new row for the given ordered
      pair. */
  function GetOrCreate(s: State, sender: Option<nat>, recipient: Option<nat>)
    : (r: Result<(State, Conversation), Error>)
    ensures r.Ok? ==>
      && sender.Some? && recipient.Some?
      && Joins(r.value.1, sender.value, recipient.value)
      && r.value.1 in r.value.0.conversations
    ensures sender.Some? && recipient.Some? && Between(s.conversations, sender.value, recipient.value) != [] ==>
      r == Ok((s, Between(s.conversations, sender.value, recipient.value)[0]))
    ensures r.Ok? && r.value.0 != s ==>
      && Between(s.conversations, sender.value, recipient.value) == []
      && r.value.1 == Conversation(s.nextConversationId, sender.value, recipient.value)
      && r.value.0.conversations == s.conversations + [r.value.1]
      && r.value.0.users == s.users && r.value.0.messages == s.messages
  {
    if sender.Some? && recipient.Some? && Between(s.conversations, sender.value, recipient.value) != [] then
      var found := Between(s.conversations, sender.value, recipient.value)[0];
      assert found in Between(s.conversations, sender.value, recipient.value);
      Ok((s, found))
    else
      CreateConversation(s, sender, recipient)
  }

  /** A row with a fresh, larger id and a pair no row joins can go at the end. */
  lemma AppendRowKeepsOrder(cs: seq<Conversation>, c: Conversation)
    requires ConversationIdsAscending(cs) && PairUnique(cs)
    requires forall x :: x in cs ==> x.id < c.id && !Joins(x, c.senderId, c.recipientId)
    ensures ConversationIdsAscending(cs + [c]) && PairUnique(cs + [c])
  {
    var r := cs + [c];
    forall i, j | 0 <= i < j < |r|
      ensures r[i].id < r[j].id && !Joins(r[j], r[i].senderId, r[i].recipientId)
    {
      assert r[i] == cs[i] && cs[i] in cs;
      if j < |cs| { assert r[j] == cs[j]; }
    }
  }

  /** Adding a row for a pair that has none keeps the store valid. */
  lemma CreateConversationPreservesValid(s: State, a: nat, b: nat)
    requires Valid(s)
    requires forall x :: x in s.conversations ==> !Joins(x, a, b)
    requires CreateConversation(s, Some(a), Some(b)).Ok?
    ensures Valid(CreateConversation(s, Some(a), Some(b)).value.0)
  {
    var (s', c) := CreateConversation(s, Some(a), Some(b)).value;
    assert s'.conversations == s.conversations + [c];
    assert ConversationsValid(s') by {
      AppendRowKeepsOrder(s.conversations, c);
      assert forall x :: x in s'.conversations ==> x in s.conversations || x == c;
    }
    assert MessagesValid(s') by {
      forall m | m in s'.messages && m.conversationId.Some?
        ensures ConversationExists(s'.conversations, m.conversationId.value)
      {
        var x :| x in s.conversations && x.id == m.conversationId.value;
        assert x in s'.conversations;
      }
    }
  }

  lemma GetOrCreatePreservesValid(s: State, sender: Option<nat>, recipient: Option<nat>)
    requires Valid(s)
    requires GetOrCreate(s, sender, recipient).Ok?
    ensures Valid(GetOrCreate(s, sender, recipient).value.0)
  {
    if GetOrCreate(s, sender, recipient).value.0 != s {
      CreateConversationPreservesValid(s, sender.value, recipient.value);
    }
  }

  /** Creating keeps unordered pairs unique: the only invariant the
      symmetric lookup relies on. */
  lemma GetOrCreateKeepsPairsUnique(s: State, sender: Option<nat>, recipient: Option<nat>)
    requires PairUnique(s.conversations)
    requires GetOrCreate(s, sender, recipient).Ok?
    ensures PairUnique(GetOrCreate(s, sender, recipient).value.0.conversations)
  {
    var (s', c) := GetOrCreate(s, sender, recipient).value;
    if s' != s {
      forall i, j | 0 <= i < j < |s'.conversations|
        ensures !Joins(s'.conversations[j], s'.conversations[i].senderId, s'.conversations[i].recipientId)
      {
        if j == |s.conversations| {
          assert s'.conversations[i] in s.conversations;
        }
      }
    }
  }

  /** In a valid store `create` fails exactly when a participant is missing or
      unknown: the ordered-pair validation never fires on this path. */
  lemma GetOrCreateFailsOnlyOnUnknownUser(s: State, sender: Option<nat>, recipient: Option<nat>)
    requires Valid(s)
    ensures GetOrCreate(s, sender, recipient).Err? <==>
      || sender.None? || recipient.None?
      || !UserExists(s.users, sender.value) || !UserExists(s.users, recipient.value)
  {
    if sender.Some? && recipient.Some? && Between(s.conversations, sender.value, recipient.value) != [] {
      var c := Between(s.conversations, sender.value, recipient.value)[0];
      assert c in Between(s.conversations, sender.value, recipient.value);
      assert c in s.conversations;
    }
  }

  /** After a successful `create(a, b)` the store holds exactly one
      conversation for the pair, the one returned. */
  lemma GetOrCreateLeavesOnePair(s: State, a: nat, b: nat)
    requires PairUnique(s.conversations)
    requires GetOrCreate(s, Some(a), Some(b)).Ok?
    ensures Between(GetOrCreate(s, Some(a), Some(b)).value.0.conversations, a, b)
      == [GetOrCreate(s, Some(a), Some(b)).value.1]
  {
    var r := GetOrCreate(s, Some(a), Some(b)).value;
    GetOrCreateKeepsPairsUnique(s, Some(a), Some(b));
    var bt := Between(r.0.conversations, a, b);
    BetweenAtMostOne(r.0.conversations, a, b);
    assert r.1 in r.0.conversations && Joins(r.1, a, b);
    assert r.1 in bt;
    SingletonOf(bt, r.1);
  }

  lemma SingletonOf<T>(xs: seq<T>, x: T)
    requires |xs| <= 1 && x in xs
    ensures xs == [x]
  {
  }

  /** Run sequentially, `create(a, b)` followed by `create(b, a)` or by
      `create(a, b)` again returns the same conversation and leaves the store
      as the first call left it. */
  lemma GetOrCreateSymmetric(s: State, a: nat, b: nat)
    requires PairUnique(s.conversations)
    requires GetOrCreate(s, Some(a), Some(b)).Ok?
    ensures var r := GetOrCreate(s, Some(a), Some(b)).value;
      && GetOrCreate(r.0, Some(b), Some(a)) == Ok(r)
      && GetOrCreate(r.0, Some(a), Some(b)) == Ok(r)
  {
    var r := GetOrCreate(s, Some(a), Some(b)).value;
    GetOrCreateLeavesOnePair(s, a, b);
    BetweenSymmetric(r.0.conversations, a, b);
  }

  /** Two users and one conversation between them, started by user 1. */
  function PairExample(): State {
    State([User(1, "alice", None), User(2, "bob", None)], [Conversation(1, 1, 2)], [], 3, 2, 1, 0)
  }

  lemma PairExampleValid()
    ensures Valid(PairExample())
  {
    var s := PairExample();
    assert s.users[0] in s.users && s.users[1] in s.users;
    assert "alice"[0] == 'a' && "bob"[0] == 'b';
  }

  /** The model validation alone admits the reversed pair: with a
      conversation (1 -> 2) stored, `create!` of (2 -> 1) succeeds and breaks
      unordered-pair uniqueness; only the `between` lookup in the controller
      keeps the pair unique, returning the stored row instead. */
  lemma ValidationAdmitsReversedPair()
    ensures CreateConversation(PairExample(), Some(2), Some(1)).Ok?
    ensures !PairUnique(CreateConversation(PairExample(), Some(2), Some(1)).value.0.conversations)
    ensures GetOrCreate(PairExample(), Some(2), Some(1)) == Ok((PairExample(), Conversation(1, 1, 2)))
  {
    var s := PairExample();
    assert s.users[0] in s.users && s.users[1] in s.users;
    assert Between(s.conversations, 2, 1) == [Conversation(1, 1, 2)];
    var s' := CreateConversation(s, Some(2), Some(1)).value.0;
    assert s'.conversations == [Conversation(1, 1, 2), Conversation(2, 2, 1)];
    assert Joins(s'.conversations[1], s'.conversations[0].senderId, s'.conversations[0].recipientId);
  }

  /** `ConversationsController#show`: the conversation with the id, or not found. */
  function ShowConversation(s: State, id: Option<nat>): (r: Result<Conversation, Error>)
    ensures r.Ok? <==> id.Some? && ConversationExists(s.conversations, id.value)
    ensures r.Ok? ==> r.value in s.conversations && r.value.id == id.value
    ensures r.Err? ==> r.error == NotFound
  {
    if id.None? then Err(NotFound)
    else match FindConversation(s.conversations, id.value)
      case Some(c) => Ok(c)
      case None => Err(NotFound)
  }

  predicate HasMessages(ms: seq<Message>, cid: nat) {
    exists m :: m in ms && m.conversationId == Some(cid)
  }

  /** The message with the greatest creation time. */
  function Latest(ms: seq<Message>): (r: Option<Message>)
    ensures r.None? <==> ms == []
    ensures r.Some? ==> r.value in ms && forall m :: m in ms ==> m.createdAt <= r.value.createdAt
  {
    if ms == [] then None
    else match Latest(ms[1..])
      case None => Some(ms[0])
      case Some(m) => if ms[0].createdAt < m.createdAt then Some(m) else Some(ms[0])
  }

  function RoomMessages(ms: seq<Message>, cid: nat): (r: seq<Message>)
    ensures forall m :: m in r <==> m in ms && m.conversationId == Some(cid)
  {
    if ms == [] then []
    else (if ms[0].conversationId == Some(cid) then [ms[0]] else []) + RoomMessages(ms[1..], cid)
  }

  /** `Conversation#last_message`: nil for a conversation without messages,
      otherwise the four-field summary of its latest message. */
  function LastMessage(ms: seq<Message>, cid: nat): (r: Option<MessageSummary>)
    ensures r.None? <==> !HasMessages(ms, cid)
    ensures r.Some? ==>
      exists m :: (m in ms && m.conversationId == Some(cid) && r.value == Summary(m) &&
        forall x :: x in ms && x.conversationId == Some(cid) ==> x.createdAt <= m.createdAt)
  {
    var room := RoomMessages(ms, cid);
    assert room == [] <==> !HasMessages(ms, cid) by {
      if room != [] { assert room[0] in room; }
    }
    match Latest(room)
    case None => None
    case Some(m) => Some(Summary(m))
  }

  /** The conversations `ConversationsController#index` selects: the user is
      a participant and at least one message joins the row (the inner join),
      each row once (`distinct`). */
  function Listed(cs: seq<Conversation>, ms: seq<Message>, u: nat): (r: seq<Conversation>)
    ensures forall c :: c in r <==> c in cs && Involves(c, u) && HasMessages(ms, c.id)
    ensures ConversationIdsAscending(cs) ==> ConversationIdsAscending(r)
  {
    if cs == [] then []
    else if Involves(cs[0], u) && HasMessages(ms, cs[0].id) then
      var rest := Listed(cs[1..], ms, u);
      ConversationHead(cs);
      ConversationCons(cs[0], rest);
      [cs[0]] + rest
    else Listed(cs[1..], ms, u)
  }

  /** One element of the `index` response: the conversation with its
      sender, recipient and `last_message`. */
  datatype Entry = Entry(
    conversation: Conversation,
    sender: Option<User>,
    recipient: Option<User>,
    lastMessage: Option<MessageSummary>)

  /** A listed conversation with its sender, recipient and `last_message`. */
  function EntryOf(s: State, c: Conversation): Entry {
    Entry(c, FindUser(s.users, c.senderId), FindUser(s.users, c.recipientId), LastMessage(s.messages, c.id))
  }

  function Entries(s: State, sel: seq<Conversation>): (r: seq<Entry>)
    ensures |r| == |sel|
    ensures forall i :: 0 <= i < |r| ==> r[i] == EntryOf(s, sel[i])
  {
    if sel == [] then [] else [EntryOf(s, sel[0])] + Entries(s, sel[1..])
  }

  /** The entries of a selection are its rows, position by position, each
      with its participants and `last_message`. */
  lemma {:induction false} EntriesFollowSelection(s: State, sel: seq<Conversation>)
    ensures forall i :: 0 <= i < |Entries(s, sel)| ==>
      Entries(s, sel)[i] == EntryOf(s, Entries(s, sel)[i].conversation) && Entries(s, sel)[i].conversation in sel
  {
    var r := Entries(s, sel);
    forall i | 0 <= i < |r| ensures r[i] == EntryOf(s, r[i].conversation) && r[i].conversation in sel {
      assert r[i].conversation == sel[i];
    }
  }

  /** Every row of a selection has an entry. */
  lemma {:induction false} EntriesCoverSelection(s: State, sel: seq<Conversation>, c: Conversation)
    requires c in sel
    ensures exists i :: 0 <= i < |Entries(s, sel)| && Entries(s, sel)[i].conversation == c
  {
    var i :| 0 <= i < |sel| && sel[i] == c;
    assert Entries(s, sel)[i] == EntryOf(s, sel[i]);
  }

  /** Entries keep the selection's id order. */
  lemma {:induction false} EntriesKeepOrder(s: State, sel: seq<Conversation>)
    ensures ConversationIdsAscending(sel) ==>
      forall i, j :: 0 <= i < j < |Entries(s, sel)| ==> Entries(s, sel)[i].conversation.id < Entries(s, sel)[j].conversation.id
  {
    var r := Entries(s, sel);
    if ConversationIdsAscending(sel) {
      forall i, j | 0 <= i < j < |r| ensures r[i].conversation.id < r[j].conversation.id {
        assert r[i].conversation == sel[i] && r[j].conversation == sel[j];
      }
    }
  }

  /** `ConversationsController#index` for the `user_id` parameter: no
      parameter lists nothing (`sender_id IS NULL` matches no row). */
  function ListFor(s: State, user: Option<nat>): (r: seq<Entry>)
    ensures user.None? ==> r == []
    ensures forall i :: 0 <= i < |r| ==>
      && user.Some?
      && r[i] == EntryOf(s, r[i].conversation)
      && r[i].conversation in s.conversations
      && Involves(r[i].conversation, user.value)
      && HasMessages(s.messages, r[i].conversation.id)
    ensures user.Some? ==> forall c :: c in s.conversations && Involves(c, user.value) && HasMessages(s.messages, c.id) ==>
      exists i :: 0 <= i < |r| && r[i].conversation == c
    ensures ConversationIdsAscending(s.conversations) ==>
      forall i, j :: 0 <= i < j < |r| ==> r[i].conversation.id < r[j].conversation.id
  {
    match user
    case None => []
    case Some(u) =>
      var sel := Listed(s.conversations, s.messages, u);
      EntriesFollowSelection(s, sel);
      forall c | c in sel ensures exists i :: 0 <= i < |Entries(s, sel)| && Entries(s, sel)[i].conversation == c {
        EntriesCoverSelection(s, sel, c);
      }
      EntriesKeepOrder(s, sel);
      Entries(s, sel)
  }

  /** Every `index` entry carries a `last_message`, the summary of the
      conversation's latest message. */
  lemma ListForCarriesLastMessage(s: State, user: Option<nat>, i: nat)
    requires i < |ListFor(s, user)|
    ensures var e := ListFor(s, user)[i];
      && e.lastMessage.Some?
      && exists m :: m in s.messages && m.conversationId == Some(e.conversation.id) && e.lastMessage.value == Summary(m)
  {
  }

  /** The listed conversations are the user's sent and received ones that
      have messages. */
  lemma ListedAreSentOrReceived(s: State, u: nat, c: Conversation)
    ensures c in Listed(s.conversations, s.messages, u) <==>
      && (c in Users.ConversationsSent(s.conversations, u) || c in Users.ConversationsReceived(s.conversations, u))
      && HasMessages(s.messages, c.id)
  {
  }

  /** Destroying a conversation (`has_many :messages, dependent: :destroy`). */
  function Destroy(s: State, id: nat): (r: State)
    ensures forall c :: c in r.conversations <==> c in s.conversations && c.id != id
    ensures forall m :: m in r.messages <==> m in s.messages && m.conversationId != Some(id)
    ensures r.users == s.users
    ensures ConversationsValid(s) ==> ConversationIdsAscending(r.conversations) && PairUnique(r.conversations)
    ensures MessagesValid(s) ==> MessageIdsAscending(r.messages) && TimeAscending(r.messages)
  {
    s.(conversations := OtherConversations(s.conversations, id), messages := Surviving(s.messages, id))
  }

  function OtherConversations(cs: seq<Conversation>, id: nat): (r: seq<Conversation>)
    ensures forall c :: c in r <==> c in cs && c.id != id
    ensures ConversationIdsAscending(cs) ==> ConversationIdsAscending(r)
    ensures PairUnique(cs) ==> PairUnique(r)
  {
    if cs == [] then []
    else if cs[0].id == id then OtherConversations(cs[1..], id)
    else
      var rest := OtherConversations(cs[1..], id);
      ConversationHead(cs);
      ConversationCons(cs[0], rest);
      [cs[0]] + rest
  }

  function Surviving(ms: seq<Message>, id: nat): (r: seq<Message>)
    ensures forall m :: m in r <==> m in ms && m.conversationId != Some(id)
    ensures MessageIdsAscending(ms) ==> MessageIdsAscending(r)
    ensures TimeAscending(ms) ==> TimeAscending(r)
  {
    if ms == [] then []
    else if ms[0].conversationId == Some(id) then Surviving(ms[1..], id)
    else
      var rest := Surviving(ms[1..], id);
      TimeHead(ms);
      TimeCons(ms[0], rest);
      MessageIdHead(ms);
      MessageIdCons(ms[0], rest);
      [ms[0]] + rest
  }

  /** Destroying a conversation keeps the store valid: every surviving
      message still points at a surviving conversation. */
  lemma DestroyPreservesValid(s: State, id: nat)
    requires Valid(s)
    ensures Valid(Destroy(s, id))
  {
    var r := Destroy(s, id);
    forall m | m in r.messages && m.conversationId.Some?
      ensures ConversationExists(r.conversations, m.conversationId.value)
    {
      var c :| c in s.conversations && c.id == m.conversationId.value;
      assert c in r.conversations;
    }
  }
}

=== FILE: conversations_controller.dfy ===
/** `ConversationsController`: a user's conversation list, get-or-create for
    a pair, and lookup by id. */
module ConversationsController {
  import opened Wrappers
  import opened Records
  import opened Params
  import Conversations

  /** The answer to a request: the store after it, the status, and the
      conversation rendered, if any. */
  datatype Reply = Reply(state: State, status: nat, conversation: Option<Conversation>)

  /** `index`: conversations of the `user_id` parameter that have messages. */
  function Index(s: State, p: Params): seq<Conversations.Entry> {
    Conversations.ListFor(s, CastId(Lookup(p, "user_id")))
  }

  /** `create`: the pair's existing conversation (200, nothing added), or a
      new one; a failed `create!` answers 422. */
  function Create(s: State, p: Params): (r: Reply)
    ensures r.status == 200 <==> r.conversation.Some?
    ensures r.conversation.None? ==> r.state == s && r.status == 422
    ensures var a := CastId(Lookup(p, "sender_id")); var b := CastId(Lookup(p, "recipient_id"));
      && (r.conversation.Some? <==>
            && a.Some? && b.Some?
            && (Conversations.Between(s.conversations, a.value, b.value) != [] ||
                (UserExists(s.users, a.value) && UserExists(s.users, b.value))))
      && (r.conversation.Some? ==>
            Joins(r.conversation.value, a.value, b.value) && r.conversation.value in r.state.conversations)
      && (a.Some? && b.Some? && Conversations.Between(s.conversations, a.value, b.value) != [] ==>
            r == Reply(s, 200, Some(Conversations.Between(s.conversations, a.value, b.value)[0])))
      && (r.conversation.Some? && r.state != s ==>
            && r.conversation.value == Conversation(s.nextConversationId, a.value, b.value)
            && r.state.conversations == s.conversations + [r.conversation.value]
            && r.state.users == s.users && r.state.messages == s.messages)
  {
    match Conversations.GetOrCreate(s, CastId(Lookup(p, "sender_id")), CastId(Lookup(p, "recipient_id")))
    case Ok((s', c)) => Reply(s', 200, Some(c))
    case Err(e) => Reply(s, StatusOf(e), None)
  }

  /** `show`: the conversation with the `id` parameter (200) or not found (404). */
  function Show(s: State, p: Params): (r: Reply)
    ensures r.state == s
    ensures r.status == 200 || r.status == 404
    ensures r.status == 200 <==> r.conversation.Some?
    ensures r.conversation.Some? ==>
      r.conversation.value in s.conversations && Some(r.conversation.value.id) == CastId(Lookup(p, "id"))
    ensures r.status == 404 <==> CastId(Lookup(p, "id")).None? || !ConversationExists(s.conversations, CastId(Lookup(p, "id")).value)
  {
    match Conversations.ShowConversation(s, CastId(Lookup(p, "id")))
    case Ok(c) => Reply(s, 200, Some(c))
    case Err(e) => Reply(s, 404, None)
  }
}

=== FILE: decimal.dfy ===
/** Decimal rendering of ids, as Ruby's string interpolation (`"#{id}"`) and
    JavaScript's `toString()` produce it, the digits-only parse that reads
    such a rendering back, and Ruby's lenient `String#to_i`. */
module Decimal {
  import opened Wrappers

  predicate IsDigit(c: char) {
    '0' <= c <= '9'
  }

  function DigitValue(c: char): nat
    requires IsDigit(c)
  {
    c as int - '0' as int
  }

  function DigitChar(d: nat): (c: char)
    requires d < 10
    ensures IsDigit(c) && DigitValue(c) == d
  {
    ('0' as int + d) as char
  }

  predicate AllDigits(s: string) {
    forall i :: 0 <= i < |s| ==> IsDigit(s[i])
  }

  /** The canonical decimal rendering of `n`: at least one digit, and no
      leading zero unless `n` is zero itself. */
  function Show(n: nat): (s: string)
    ensures 1 <= |s| && AllDigits(s)
    ensures n == 0 ==> s == "0"
    ensures n > 0 ==> s[0] != '0'
  {
    if n < 10 then [DigitChar(n)] else Show(n / 10) + [DigitChar(n % 10)]
  }

  /** The number a string of digits denotes, most significant digit first. */
  function Value(s: string): nat
    requires AllDigits(s)
  {
    if |s| == 0 then 0 else Value(s[..|s| - 1]) * 10 + DigitValue(s[|s| - 1])
  }

  /** Reads a non-empty string of decimal digits; anything else is not a number. */
  function Parse(s: string): Option<nat> {
    if 1 <= |s| && AllDigits(s) then Some(Value(s)) else None
  }

  /** Reading back a rendered id gives the id. */
  lemma {:induction false} ParseShow(n: nat)
    ensures Parse(Show(n)) == Some(n)
  {
    if n >= 10 {
      ParseShow(n / 10);
      var s := Show(n);
      assert s[..|s| - 1] == Show(n / 10);
      assert Value(s) == Value(Show(n / 10)) * 10 + n % 10;
    }
  }

  /** Two ids with the same rendering are the same id. */
  lemma ShowInjective(a: nat, b: nat)
    ensures Show(a) == Show(b) <==> a == b
  {
    ParseShow(a);
    ParseShow(b);
  }

  /** The white space `String#to_i` skips before the number: ASCII space,
      tab, line feed, vertical tab, form feed and carriage return. */
  predicate IsAsciiSpace(c: char) {
    ('\t' <= c <= '\r') || c == ' '
  }

  function DropAsciiSpace(s: string): (r: string)
    ensures |r| <= |s| && r == s[|s| - |r|..]
    ensures r != [] ==> !IsAsciiSpace(r[0])
    ensures s != [] && !IsAsciiSpace(s[0]) ==> r == s
  {
    if s != [] && IsAsciiSpace(s[0]) then DropAsciiSpace(s[1..]) else s
  }

  /** The digits of the leading run of `s`, read as `to_i` reads them: one
      underscore between two digits is skipped, anything else ends the run. */
  function DigitRun(s: string): (r: string)
    ensures AllDigits(r)
    ensures r == [] <==> s == [] || !IsDigit(s[0])
    ensures r != [] ==> r[0] == s[0]
  {
    if s == [] || !IsDigit(s[0]) then []
    else if 3 <= |s| && s[1] == '_' && IsDigit(s[2]) then [s[0]] + DigitRun(s[2..])
    else [s[0]] + DigitRun(s[1..])
  }

  /** Ruby's `String#to_i` in base 10: leading white space, an optional sign,
      then the leading digit run; no digits at all read as 0. */
  function ToI(s: string): (r: int)
    ensures var t := DropAsciiSpace(s);
      (t == [] || (!IsDigit(t[0]) && t[0] != '+' && t[0] != '-')) ==> r == 0
  {
    var t := DropAsciiSpace(s);
    if t != [] && t[0] == '-' then -(Value(DigitRun(t[1..])) as int)
    else if t != [] && t[0] == '+' then Value(DigitRun(t[1..]))
    else Value(DigitRun(t))
  }

  /** A string of digits is its own leading run. */
  lemma {:induction false} DigitRunAllDigits(s: string)
    requires AllDigits(s)
    ensures DigitRun(s) == s
  {
    if s != [] {
      DigitRunAllDigits(s[1..]);
    }
  }

  /** A non-empty digit string reads as the number it denotes. */
  lemma DigitsToI(s: string)
    requires 1 <= |s| && AllDigits(s)
    ensures ToI(s) == Value(s)
  {
    assert !IsAsciiSpace(s[0]) && s[0] != '-' && s[0] != '+';
    DigitRunAllDigits(s);
  }

  /** `to_i` reads a rendered id back, like the strict parse. */
  lemma ToIShow(n: nat)
    ensures ToI(Show(n)) == n
  {
    DigitsToI(Show(n));
    ParseShow(n);
  }
}

=== FILE: messages.dfy ===
/** The message store: the `Message` model's validation and persistence, and
    the per-room listing `MessagesController#index` serves. */
module Messages {
  import opened Wrappers
  import opened Records
  import Text

  /** The messages of one room, in store order: a conversation's when `room`
      names it, the global room's (no conversation) when `room` is None. */
  function InRoom(ms: seq<Message>, room: Option<nat>): (r: seq<Message>)
    ensures forall m :: m in r <==> m in ms && m.conversationId == room
    ensures TimeAscending(ms) ==> TimeAscending(r)
    ensures |r| <= |ms|
  {
    if ms == [] then []
    else if ms[0].conversationId == room then
      var rest := InRoom(ms[1..], room);
      TimeHead(ms);
      TimeCons(ms[0], rest);
      [ms[0]] + rest
    else InRoom(ms[1..], room)
  }

  /** Appending a message extends its own room's listing and no other. */
  lemma {:induction false} InRoomAppend(ms: seq<Message>, m: Message, room: Option<nat>)
    ensures InRoom(ms + [m], room) == InRoom(ms, room) + (if m.conversationId == room then [m] else [])
  {
    if ms == [] {
      assert [m][1..] == [];
    } else {
      assert (ms + [m])[1..] == ms[1..] + [m];
      InRoomAppend(ms[1..], m, room);
    }
  }

  /** Non-decreasing creation times: the order `order(:created_at)` yields. */
  ghost predicate TimeOrdered(ms: seq<Message>) {
    forall i, j :: 0 <= i < j < |ms| ==> ms[i].createdAt <= ms[j].createdAt
  }

  lemma OrderedHead(ms: seq<Message>)
    requires ms != [] && TimeOrdered(ms)
    ensures TimeOrdered(ms[1..])
    ensures forall x :: x in ms[1..] ==> ms[0].createdAt <= x.createdAt
  {
    forall x | x in ms[1..] ensures ms[0].createdAt <= x.createdAt {
      var k :| 0 <= k < |ms[1..]| && ms[1..][k] == x;
      assert ms[k + 1] == x;
    }
  }

  lemma OrderedCons(x: Message, rest: seq<Message>)
    requires TimeOrdered(rest)
    requires forall m :: m in rest ==> x.createdAt <= m.createdAt
    ensures TimeOrdered([x] + rest)
  {
    var r := [x] + rest;
    forall i, j | 0 <= i < j < |r| ensures r[i].createdAt <= r[j].createdAt {
      assert r[j] == rest[j - 1] && rest[j - 1] in rest;
      if 0 < i { assert r[i] == rest[i - 1]; }
    }
  }

  /** The recursive step of `Insert`: the head stays in front of the tail
      with `m` inserted. */
  lemma InsertStep(m: Message, ms: seq<Message>, rest: seq<Message>)
    requires ms != [] && TimeOrdered(ms) && ms[0].createdAt < m.createdAt
    requires TimeOrdered(rest) && multiset(rest) == multiset(ms[1..]) + multiset{m}
    ensures TimeOrdered([ms[0]] + rest)
    ensures multiset([ms[0]] + rest) == multiset(ms) + multiset{m}
  {
    OrderedHead(ms);
    forall x | x in rest ensures ms[0].createdAt <= x.createdAt {
      assert x in multiset(rest);
    }
    OrderedCons(ms[0], rest);
    assert ms == [ms[0]] + ms[1..];
  }

  /** Inserts `m` into a time-ordered sequence, after every message no later
      than it. */
  function Insert(m: Message, ms: seq<Message>): (r: seq<Message>)
    requires TimeOrdered(ms)
    ensures TimeOrdered(r)
    ensures multiset(r) == multiset(ms) + multiset{m}
  {
    if ms == [] || m.createdAt <= ms[0].createdAt then [m] + ms
    else
      var rest := Insert(m, ms[1..]);
      InsertStep(m, ms, rest);
      [ms[0]] + rest
  }

  /** Stable insertion sort by creation time: the model of `order(:created_at)`. */
  function SortByTime(ms: seq<Message>): (r: seq<Message>)
    ensures TimeOrdered(r)
    ensures multiset(r) == multiset(ms)
  {
    if ms == [] then []
    else
      assert ms == [ms[0]] + ms[1..];
      Insert(ms[0], SortByTime(ms[1..]))
  }

  /** Sorting a sequence already strictly ascending in time changes nothing. */
  lemma {:induction false} SortOfAscending(ms: seq<Message>)
    requires TimeAscending(ms)
    ensures SortByTime(ms) == ms
  {
    if ms != [] {
      SortOfAscending(ms[1..]);
      assert [ms[0]] + ms[1..] == ms;
    }
  }

  /** `MessagesController#index`: the room's messages ordered by creation time. */
  function ListMessages(s: State, room: Option<nat>): (r: seq<Message>)
    ensures forall m :: m in r <==> m in s.messages && m.conversationId == room
    ensures TimeOrdered(r)
  {
    var r := SortByTime(InRoom(s.messages, room));
    assert forall m :: m in r <==> m in multiset(r);
    r
  }

  /** In a valid store the listing is exactly the room's messages in store
      order, strictly ascending by creation time, never mixed with another room. */
  lemma ListMessagesExact(s: State, room: Option<nat>)
    requires TimeAscending(s.messages)
    ensures ListMessages(s, room) == InRoom(s.messages, room)
    ensures TimeAscending(ListMessages(s, room))
    ensures forall m :: m in ListMessages(s, room) ==> m.conversationId == room
  {
    SortOfAscending(InRoom(s.messages, room));
  }

  /** `Message#save`: content must be present (not nil and not blank); user
      and conversation are optional, but one that is given must be an existing
      row, which the foreign keys of `messages.user_id` and
      `messages.conversation_id` enforce after validation passed. */
  function Save(s: State, content: Option<string>, userId: Option<nat>, room: Option<nat>)
    : (r: Result<(State, Message), Error>)
    ensures (content.None? || Text.Blank(content.value)) ==> r == Err(Invalid("content"))
    ensures r.Ok? <==>
      && content.Some? && !Text.Blank(content.value)
      && (userId.Some? ==> UserExists(s.users, userId.value))
      && (room.Some? ==> ConversationExists(s.conversations, room.value))
    ensures r.Ok? ==>
      && r.value.1 == Message(s.nextMessageId, content.value, userId, room, s.clock)
      && r.value.0.messages == s.messages + [r.value.1]
      && r.value.0.users == s.users
      && r.value.0.conversations == s.conversations
  {
    if content.None? || Text.Blank(content.value) then Err(Invalid("content"))
    else if userId.Some? && FindUser(s.users, userId.value).None? then Err(ForeignKeyViolation("user_id"))
    else if room.Some? && FindConversation(s.conversations, room.value).None? then
      Err(ForeignKeyViolation("conversation_id"))
    else
      var m := Message(s.nextMessageId, content.value, userId, room, s.clock);
      Ok((s.(messages := s.messages + [m], nextMessageId := s.nextMessageId + 1, clock := s.clock + 1), m))
  }

  lemma SavePreservesValid(s: State, content: Option<string>, userId: Option<nat>, room: Option<nat>)
    requires Valid(s)
    requires Save(s, content, userId, room).Ok?
    ensures Valid(Save(s, content, userId, room).value.0)
  {
    var (s', m) := Save(s, content, userId, room).value;
    assert s' == s.(messages := s.messages + [m], nextMessageId := s.nextMessageId + 1, clock := s.clock + 1);
    assert forall x :: x in s'.messages ==> x in s.messages || x == m;
  }

  /** A saved message joins the end of its own room's listing; every other
      room's listing is unchanged, and the store grows by exactly one message. */
  lemma SaveAppendsToRoom(s: State, content: Option<string>, userId: Option<nat>, room: Option<nat>, other: Option<nat>)
    requires Valid(s)
    requires Save(s, content, userId, room).Ok?
    ensures var (s', m) := Save(s, content, userId, room).value;
      && |s'.messages| == |s.messages| + 1
      && ListMessages(s', room) == ListMessages(s, room) + [m]
      && (other != room ==> ListMessages(s', other) == ListMessages(s, other))
  {
    var (s', m) := Save(s, content, userId, room).value;
    SavePreservesValid(s, content, userId, room);
    ListMessagesExact(s, room);
    ListMessagesExact(s', room);
    ListMessagesExact(s, other);
    ListMessagesExact(s', other);
    InRoomAppend(s.messages, m, room);
    InRoomAppend(s.messages, m, other);
  }
}

=== FILE: messages_controller.dfy ===
/** `MessagesController`: listing a room, and creating a message with the
    broadcasts that follow a successful save. */
module MessagesController {
  import opened Wrappers
  import opened Records
  import opened Params
  import Messages
  import Broadcasts
  import Topics
  import Text

  /** The keys `message_params` permits inside the `message` hash. */
  const MessageKeys: set<string> := {"content", "user_id"}

  /** The answer to a create request: the store after it, the status, the
      created message, and the broadcasts emitted, in order. */
  datatype Reply = Reply(state: State, status: nat, created: Option<Message>, broadcasts: seq<Broadcasts.Broadcast>)

  /** The room a request addresses: the cast `conversation_id` parameter
      (`where(conversation_id: nil)` when there is none). */
  function Room(p: Params): Option<nat> {
    CastId(Lookup(p, "conversation_id"))
  }

  /** A present blank `conversation_id`: truthy in Ruby, so `index` filters
      on it, but the integer column binds it as NULL, which `=` matches on no
      row. */
  predicate BlankRoom(p: Params) {
    match Lookup(p, "conversation_id")
    case Some(JStr(t)) => Text.Blank(t)
    case _ => false
  }

  /** `index`: the room's messages, ascending by creation time; nothing for a
      blank room. */
  function Index(s: State, p: Params): (r: seq<Message>)
    ensures BlankRoom(p) ==> r == []
    ensures !BlankRoom(p) ==> forall m :: m in r <==> m in s.messages && m.conversationId == Room(p)
  {
    if BlankRoom(p) then [] else Messages.ListMessages(s, Room(p))
  }

  /** In a valid store the room is listed oldest first, without duplicates. */
  lemma IndexAscending(s: State, p: Params)
    requires Valid(s)
    ensures TimeAscending(Index(s, p))
    ensures Index(s, p) == if BlankRoom(p) then [] else Messages.InRoom(s.messages, Room(p))
  {
    Messages.ListMessagesExact(s, Room(p));
  }

  /** A blank `conversation_id` lists nothing, while a create with the same
      parameter assigns nil and posts to the global room. */
  lemma BlankRoomListsNothing(s: State, p: Params, t: string)
    requires Lookup(p, "conversation_id") == Some(JStr(t)) && Text.Blank(t)
    ensures Index(s, p) == []
    ensures Room(p) == None
    ensures Create(s, p).created.Some? ==> Create(s, p).created.value.conversationId == None
  {
  }

  /** The author embedded in the broadcast message (`include: :user`). */
  function Author(s: State, m: Message): Option<User> {
    match m.userId
    case Some(u) => FindUser(s.users, u)
    case None => None
  }

  /** `Conversation.find_by(id: message.conversation_id)`, asked only when
      the message has a conversation. */
  function FoundConversation(s: State, m: Message): Option<Conversation> {
    match m.conversationId
    case Some(c) => FindConversation(s.conversations, c)
    case None => None
  }

  /** `create`: build the message from the permitted `content` and `user_id`
      of the required `message` hash, take its conversation from the
      `conversation_id` parameter, save it, and on success broadcast. A failed
      request changes nothing and broadcasts nothing. */
  function Create(s: State, p: Params): (r: Reply)
    ensures r.status == 201 <==> r.created.Some?
    ensures r.created.None? ==> r.state == s && r.broadcasts == [] && 400 <= r.status <= 599
    ensures Require(p, "message").Err? ==> r.status == 400
    ensures Require(p, "message").Ok? ==>
      var fs := Require(p, "message").value;
      var content := CastText(Permitted(fs, MessageKeys, "content"));
      var userId := CastId(Permitted(fs, MessageKeys, "user_id"));
      && (r.created.Some? <==>
            && content.Some? && !Text.Blank(content.value)
            && (userId.Some? ==> UserExists(s.users, userId.value))
            && (Room(p).Some? ==> ConversationExists(s.conversations, Room(p).value)))
      && (r.created.Some? ==> r.created.value == Message(s.nextMessageId, content.value, userId, Room(p), s.clock))
    ensures r.created.Some? ==>
      var m := r.created.value;
      && r.state.messages == s.messages + [m]
      && r.state.users == s.users && r.state.conversations == s.conversations
      && |r.state.messages| == |s.messages| + 1
      && m.conversationId == Room(p)
      && !Text.Blank(m.content)
      && r.broadcasts == Broadcasts.Announce(m, Author(r.state, m), FoundConversation(r.state, m))
  {
    match Require(p, "message")
    case Err(e) => Reply(s, StatusOf(e), None, [])
    case Ok(fs) =>
      var content := CastText(Permitted(fs, MessageKeys, "content"));
      var userId := CastId(Permitted(fs, MessageKeys, "user_id"));
      match Messages.Save(s, content, userId, Room(p))
      case Err(e) => Reply(s, StatusOf(e), None, [])
      case Ok((s', m)) => Reply(s', 201, Some(m), Broadcasts.Announce(m, Author(s', m), FoundConversation(s', m)))
  }

  /** A `message` hash whose content is missing or blank is refused with 422:
      nothing is stored and nothing is broadcast. */
  lemma BlankContentRefused(s: State, p: Params)
    requires Require(p, "message").Ok?
    requires var c := CastText(Permitted(Require(p, "message").value, MessageKeys, "content"));
      c.None? || Text.Blank(c.value)
    ensures Create(s, p) == Reply(s, 422, None, [])
  {
  }

  /** A room named by text such as `abc` is cast to id 0, which no row has:
      the listing is empty, and a create with present content fails on the
      conversation's foreign key (500) rather than landing in the global room. */
  lemma TextRoomNamesNoConversation(s: State, p: Params, t: string)
    requires Valid(s)
    requires Lookup(p, "conversation_id") == Some(JStr(t))
    requires 1 <= |t| && ('a' <= t[0] <= 'z' || 'A' <= t[0] <= 'Z')
    ensures Room(p) == Some(0)
    ensures Index(s, p) == []
    ensures Create(s, p).created.None? && Create(s, p).broadcasts == []
    ensures Require(p, "message").Ok? ==>
      var c := CastText(Permitted(Require(p, "message").value, MessageKeys, "content"));
      c.Some? && !Text.Blank(c.value) ==> Create(s, p).status == 500
  {
    CastLetterText(t);
    RoomZeroListsNothing(s, p);
    assert ConversationsValid(s);
    NoConversationZero(s.conversations);
    RoomZeroCreateFails(s, p);
  }

  lemma RoomZeroListsNothing(s: State, p: Params)
    requires Valid(s) && Room(p) == Some(0)
    ensures Index(s, p) == []
  {
    assert MessagesValid(s) && ConversationsValid(s);
    NoMessageInRoomZero(s.messages, s.conversations);
    IndexAscending(s, p);
    NoneInRoom(s.messages, Some(0));
  }

  /** A room no stored message belongs to has an empty listing. */
  lemma {:induction false} NoneInRoom(ms: seq<Message>, room: Option<nat>)
    requires forall m :: m in ms ==> m.conversationId != room
    ensures Messages.InRoom(ms, room) == []
  {
    if ms != [] {
      assert ms[0] in ms;
      NoneInRoom(ms[1..], room);
    }
  }

  /** Every stored message's room exists, and no conversation has id 0, so no
      message is in room 0. */
  lemma NoMessageInRoomZero(ms: seq<Message>, cs: seq<Conversation>)
    requires forall m :: m in ms && m.conversationId.Some? ==> ConversationExists(cs, m.conversationId.value)
    requires forall c :: c in cs ==> 1 <= c.id
    ensures forall m :: m in ms ==> m.conversationId != Some(0)
  {
  }

  lemma RoomZeroCreateFails(s: State, p: Params)
    requires Room(p) == Some(0) && !ConversationExists(s.conversations, 0)
    ensures Create(s, p).created.None? && Create(s, p).broadcasts == []
    ensures Require(p, "message").Ok? ==>
      var c := CastText(Permitted(Require(p, "message").value, MessageKeys, "content"));
      c.Some? && !Text.Blank(c.value) ==> Create(s, p).status == 500
  {
    if Require(p, "message").Ok? {
      var fs := Require(p, "message").value;
      var content := CastText(Permitted(fs, MessageKeys, "content"));
      var userId := CastId(Permitted(fs, MessageKeys, "user_id"));
      var saved := Messages.Save(s, content, userId, Room(p));
      assert saved.Err?;
      assert content.Some? && !Text.Blank(content.value) ==> saved.error.ForeignKeyViolation?;
    }
  }

  lemma NoConversationZero(cs: seq<Conversation>)
    requires forall c :: c in cs ==> 1 <= c.id
    ensures !ConversationExists(cs, 0)
  {
  }

  /** A successful create keeps the store valid, and in a valid store a
      conversation message always finds its conversation (the foreign key
      guarantees it), so it is followed by exactly two notices, to the
      conversation's sender and then its recipient, both carrying the
      conversation id and the message's `user_id`. */
  lemma CreateNotifiesBothParticipants(s: State, p: Params)
    requires Valid(s)
    requires Create(s, p).created.Some?
    ensures Valid(Create(s, p).state)
    ensures var r := Create(s, p); var m := r.created.value;
      m.conversationId.Some? ==>
        exists c :: c in s.conversations && c.id == m.conversationId.value &&
          r.broadcasts == [
            Broadcasts.Broadcast(Topics.ConversationTopic(c.id), Broadcasts.MessageCreated(m, Author(r.state, m))),
            Broadcasts.Broadcast(Topics.UserTopic(c.senderId), Broadcasts.ConversationUpdated(c.id, m.userId)),
            Broadcasts.Broadcast(Topics.UserTopic(c.recipientId), Broadcasts.ConversationUpdated(c.id, m.userId))]
    ensures var r := Create(s, p); var m := r.created.value;
      m.conversationId.None? ==>
        r.broadcasts == [Broadcasts.Broadcast(Topics.GlobalRoom, Broadcasts.MessageCreated(m, Author(r.state, m)))]
  {
    var fs := Require(p, "message").value;
    var content := CastText(Permitted(fs, MessageKeys, "content"));
    var userId := CastId(Permitted(fs, MessageKeys, "user_id"));
    Messages.SavePreservesValid(s, content, userId, Room(p));
    var r := Create(s, p);
    var m := r.created.value;
    if m.conversationId.Some? {
      var c := FindConversation(r.state.conversations, m.conversationId.value).value;
      assert c in s.conversations;
    }
  }

  /** Only the route (or top-level parameters) choose the conversation: a
      `conversation_id` smuggled into the `message` hash is not permitted and
      changes nothing. */
  lemma BodyCannotChooseConversation(s: State, p: Params, fs: Params, v: Json)
    requires fs != []
    ensures Create(s, p + [("message", JObj(fs + [("conversation_id", v)]))])
         == Create(s, p + [("message", JObj(fs))])
  {
    var fs' := fs + [("conversation_id", v)];
    var with := p + [("message", JObj(fs'))];
    var without := p + [("message", JObj(fs))];
    assert Require(with, "message") == Ok(fs') by {
      LookupAppend(p, "message", JObj(fs'), "message");
    }
    assert Require(without, "message") == Ok(fs) by {
      LookupAppend(p, "message", JObj(fs), "message");
    }
    assert Room(with) == Room(without) by {
      LookupAppend(p, "message", JObj(fs'), "conversation_id");
      LookupAppend(p, "message", JObj(fs), "conversation_id");
    }
    assert Permitted(fs', MessageKeys, "content") == Permitted(fs, MessageKeys, "content") by {
      LookupAppend(fs, "conversation_id", v, "content");
    }
    assert Permitted(fs', MessageKeys, "user_id") == Permitted(fs, MessageKeys, "user_id") by {
      LookupAppend(fs, "conversation_id", v, "user_id");
    }
  }
}

=== FILE: params.dfy ===
/** Request parameters as a Rails controller reads them: a JSON-like value
    tree, key lookup, `require`/`permit`, and the casts of the integer and
    string columns the values end up in. */
module Params {
  import opened Wrappers
  import opened Records
  import Decimal
  import Text

  /** The HTTP methods the client uses. */
  datatype Verb = Get | Post

  datatype Json = JNull | JStr(s: string) | JNat(n: nat) | JObj(fields: seq<(string, Json)>)

  /** A parameter hash: body, query and route parameters merged in that order. */
  type Params = seq<(string, Json)>

  predicate IsScalar(v: Json) {
    !v.JObj?
  }

  /** `params[key]`: the last binding of `key` wins, as when a later source
      (the route) overrides an earlier one (the body). */
  function Lookup(p: Params, key: string): (r: Option<Json>)
    ensures r.None? <==> forall i :: 0 <= i < |p| ==> p[i].0 != key
    ensures r.Some? ==> exists i :: 0 <= i < |p| && p[i] == (key, r.value)
  {
    if p == [] then None
    else if p[|p| - 1].0 == key then Some(p[|p| - 1].1)
    else Lookup(p[..|p| - 1], key)
  }

  /** A later binding of `key` hides every earlier one; other keys see through it. */
  lemma LookupAppend(p: Params, k: string, v: Json, key: string)
    ensures Lookup(p + [(k, v)], key) == if k == key then Some(v) else Lookup(p, key)
  {
    assert (p + [(k, v)])[..|p|] == p;
  }

  /** Parameters merged after others override them key by key. */
  lemma {:induction false} LookupConcat(p: Params, q: Params, key: string)
    ensures Lookup(p + q, key) == if Lookup(q, key).Some? then Lookup(q, key) else Lookup(p, key)
    decreases |q|
  {
    if q != [] {
      var last := q[|q| - 1];
      assert p + q == (p + q[..|q| - 1]) + [last];
      assert q == q[..|q| - 1] + [last];
      LookupAppend(p + q[..|q| - 1], last.0, last.1, key);
      LookupAppend(q[..|q| - 1], last.0, last.1, key);
      LookupConcat(p, q[..|q| - 1], key);
    } else {
      assert p + q == p;
    }
  }

  /** The cast of a value assigned to an integer id column (ActiveModel's
      integer type): numbers stay, null, a hash and a blank string are nil,
      and other text goes through `String#to_i`. A `where` on a non-blank
      value compares the same cast. A negative result names no row, like 0
      (ids start at 1), and is read as 0. */
  function CastId(v: Option<Json>): (r: Option<nat>)
    ensures r.None? <==> v.None? || v.value.JNull? || v.value.JObj? || (v.value.JStr? && Text.Blank(v.value.s))
    ensures v.Some? && v.value.JNat? ==> r == Some(v.value.n)
  {
    match v
    case Some(JNat(n)) => Some(n)
    case Some(JStr(t)) =>
      if Text.Blank(t) then None
      else
        var n := Decimal.ToI(t);
        Some(if n < 0 then 0 else n)
    case _ => None
  }

  /** A rendered id is cast back to the id. */
  lemma CastShownId(n: nat)
    ensures CastId(Some(JStr(Decimal.Show(n)))) == Some(n)
    ensures !Text.Blank(Decimal.Show(n))
  {
    var t := Decimal.Show(n);
    assert !Text.IsRubySpace(t[0]);
    Decimal.ToIShow(n);
  }

  /** Text that starts with a letter is cast to 0, an id no row has. */
  lemma CastLetterText(t: string)
    requires 1 <= |t| && ('a' <= t[0] <= 'z' || 'A' <= t[0] <= 'Z')
    ensures CastId(Some(JStr(t))) == Some(0)
  {
    assert !Text.IsRubySpace(t[0]);
    assert !Decimal.IsAsciiSpace(t[0]);
    assert Decimal.DropAsciiSpace(t) == t;
  }

  /** The cast of a permitted value assigned to a string column. */
  function CastText(v: Option<Json>): Option<string> {
    match v
    case Some(JStr(t)) => Some(t)
    case Some(JNat(n)) => Some(Decimal.Show(n))
    case _ => None
  }

  /** `params.require(key)`: the nested hash under `key`, or a missing-parameter
      failure when it is absent or blank (an empty hash, null, a blank string). */
  function Require(p: Params, key: string): (r: Result<Params, Error>)
    ensures r.Err? ==> r.error == ParameterMissing(key)
    ensures r.Ok? <==> exists fs :: Lookup(p, key) == Some(JObj(fs)) && fs != []
    ensures r.Ok? ==> Lookup(p, key) == Some(JObj(r.value))
  {
    match Lookup(p, key)
    case Some(JObj(fs)) => if fs == [] then Err(ParameterMissing(key)) else Ok(fs)
    case _ => Err(ParameterMissing(key))
  }

  /** `permit(*keys)[key]`: a scalar value of a listed key; nothing for a key
      outside the list or a nested value. */
  function Permitted(fs: Params, keys: set<string>, key: string): (r: Option<Json>)
    ensures key !in keys ==> r.None?
    ensures r.Some? ==> Lookup(fs, key) == r && IsScalar(r.value)
  {
    if key in keys && Lookup(fs, key).Some? && IsScalar(Lookup(fs, key).value) then Lookup(fs, key) else None
  }
}

=== FILE: records.dfy ===
/** The persisted rows of the chat backend (users, conversations, messages) and
    the store that holds them, with the invariant every reachable store keeps. */
module Records {
  import opened Wrappers
  import Text

  datatype User = User(id: nat, username: string, avatarUrl: Option<string>)

  /** A two-party conversation. `senderId` is whoever started it. */
  datatype Conversation = Conversation(id: nat, senderId: nat, recipientId: nat)

  /** A message. No user means an anonymous post; no conversation means the
      global room. `createdAt` is a tick of the store's clock. */
  datatype Message = Message(
    id: nat,
    content: string,
    userId: Option<nat>,
    conversationId: Option<nat>,
    createdAt: nat)

  /** The four fields `Conversation#last_message` exposes. */
  datatype MessageSummary = MessageSummary(id: nat, content: string, createdAt: nat, userId: Option<nat>)

  /** The three tables, in insertion order, with the next id of each table
      (auto-increment, starting at 1) and the clock stamping `created_at`. */
  datatype State = State(
    users: seq<User>,
    conversations: seq<Conversation>,
    messages: seq<Message>,
    nextUserId: nat,
    nextConversationId: nat,
    nextMessageId: nat,
    clock: nat)

  const Initial: State := State([], [], [], 1, 1, 1, 0)

  /** Why a request failed: a model validation (HTTP 422), a missing row
      (404), a missing required parameter (400), or a foreign key the database
      refused (500). */
  datatype Error =
    | Invalid(attribute: string)
    | NotFound
    | ParameterMissing(key: string)
    | ForeignKeyViolation(column: string)

  /** The HTTP status a failure is answered with. */
  function StatusOf(e: Error): (status: nat)
    ensures 400 <= status <= 599
  {
    match e
    case Invalid(_) => 422
    case NotFound => 404
    case ParameterMissing(_) => 400
    case ForeignKeyViolation(_) => 500
  }

  predicate UserExists(users: seq<User>, id: nat) {
    exists u :: u in users && u.id == id
  }

  predicate ConversationExists(cs: seq<Conversation>, id: nat) {
    exists c :: c in cs && c.id == id
  }

  /** `c` is a conversation between `a` and `b`, in either orientation. */
  predicate Joins(c: Conversation, a: nat, b: nat) {
    (c.senderId == a && c.recipientId == b) || (c.senderId == b && c.recipientId == a)
  }

  predicate Involves(c: Conversation, u: nat) {
    c.senderId == u || c.recipientId == u
  }

  function Summary(m: Message): MessageSummary {
    MessageSummary(m.id, m.content, m.createdAt, m.userId)
  }

  function FindUser(users: seq<User>, id: nat): (r: Option<User>)
    ensures r.Some? <==> UserExists(users, id)
    ensures r.Some? ==> r.value in users && r.value.id == id
  {
    if users == [] then None
    else if users[0].id == id then Some(users[0])
    else FindUser(users[1..], id)
  }

  function FindConversation(cs: seq<Conversation>, id: nat): (r: Option<Conversation>)
    ensures r.Some? <==> ConversationExists(cs, id)
    ensures r.Some? ==> r.value in cs && r.value.id == id
  {
    if cs == [] then None
    else if cs[0].id == id then Some(cs[0])
    else FindConversation(cs[1..], id)
  }

  ghost predicate UserIdsAscending(us: seq<User>) {
    forall i, j :: 0 <= i < j < |us| ==> us[i].id < us[j].id
  }

  ghost predicate ConversationIdsAscending(cs: seq<Conversation>) {
    forall i, j :: 0 <= i < j < |cs| ==> cs[i].id < cs[j].id
  }

  ghost predicate MessageIdsAscending(ms: seq<Message>) {
    forall i, j :: 0 <= i < j < |ms| ==> ms[i].id < ms[j].id
  }

  /** Strictly increasing creation times, so `order(:created_at)` is total. */
  ghost predicate TimeAscending(ms: seq<Message>) {
    forall i, j :: 0 <= i < j < |ms| ==> ms[i].createdAt < ms[j].createdAt
  }

  /** At most one conversation per unordered pair of users. */
  ghost predicate PairUnique(cs: seq<Conversation>) {
    forall i, j :: 0 <= i < j < |cs| ==> !Joins(cs[j], cs[i].senderId, cs[i].recipientId)
  }

  ghost predicate UsersValid(s: State) {
    && 1 <= s.nextUserId
    && UserIdsAscending(s.users)
    && (forall u :: u in s.users ==> 1 <= u.id < s.nextUserId)
    && (forall u :: u in s.users ==> !Text.Blank(u.username))
    && (forall i, j :: 0 <= i < j < |s.users| ==> s.users[i].username != s.users[j].username)
  }

  ghost predicate ConversationsValid(s: State) {
    && 1 <= s.nextConversationId
    && ConversationIdsAscending(s.conversations)
    && (forall c :: c in s.conversations ==> 1 <= c.id < s.nextConversationId)
    && (forall c :: c in s.conversations ==>
          UserExists(s.users, c.senderId) && UserExists(s.users, c.recipientId))
    && PairUnique(s.conversations)
  }

  ghost predicate MessagesValid(s: State) {
    && 1 <= s.nextMessageId
    && MessageIdsAscending(s.messages)
    && TimeAscending(s.messages)
    && (forall m :: m in s.messages ==> 1 <= m.id < s.nextMessageId && m.createdAt < s.clock)
    && (forall m :: m in s.messages ==> !Text.Blank(m.content))
    && (forall m :: m in s.messages && m.userId.Some? ==> UserExists(s.users, m.userId.value))
    && (forall m :: m in s.messages && m.conversationId.Some? ==>
          ConversationExists(s.conversations, m.conversationId.value))
  }

  /** The head of a time-ascending sequence is earlier than every later
      message, and the tail is time-ascending. */
  lemma TimeHead(ms: seq<Message>)
    requires ms != []
    ensures TimeAscending(ms) ==>
      TimeAscending(ms[1..]) && forall m :: m in ms[1..] ==> ms[0].createdAt < m.createdAt
  {
    if TimeAscending(ms) {
      forall m | m in ms[1..] ensures ms[0].createdAt < m.createdAt {
        var k :| 0 <= k < |ms[1..]| && ms[1..][k] == m;
        assert ms[k + 1] == m;
      }
    }
  }

  /** A message earlier than every message of a time-ascending sequence can
      go in front of it. */
  lemma TimeCons(x: Message, rest: seq<Message>)
    ensures TimeAscending(rest) && (forall m :: m in rest ==> x.createdAt < m.createdAt) ==>
      TimeAscending([x] + rest)
  {
    if TimeAscending(rest) && (forall m :: m in rest ==> x.createdAt < m.createdAt) {
      var r := [x] + rest;
      forall i, j | 0 <= i < j < |r| ensures r[i].createdAt < r[j].createdAt {
        assert r[j] == rest[j - 1] && rest[j - 1] in rest;
        if 0 < i { assert r[i] == rest[i - 1]; }
      }
    }
  }

  /** The head of an id-ascending message sequence has the least id, and the
      tail is id-ascending. */
  lemma MessageIdHead(ms: seq<Message>)
    requires ms != []
    ensures MessageIdsAscending(ms) ==>
      MessageIdsAscending(ms[1..]) && forall m :: m in ms[1..] ==> ms[0].id < m.id
  {
    if MessageIdsAscending(ms) {
      forall m | m in ms[1..] ensures ms[0].id < m.id {
        var k :| 0 <= k < |ms[1..]| && ms[1..][k] == m;
        assert ms[k + 1] == m;
      }
    }
  }

  lemma MessageIdCons(x: Message, rest: seq<Message>)
    ensures MessageIdsAscending(rest) && (forall m :: m in rest ==> x.id < m.id) ==>
      MessageIdsAscending([x] + rest)
  {
    if MessageIdsAscending(rest) && (forall m :: m in rest ==> x.id < m.id) {
      var r := [x] + rest;
      forall i, j | 0 <= i < j < |r| ensures r[i].id < r[j].id {
        assert r[j] == rest[j - 1] && rest[j - 1] in rest;
        if 0 < i { assert r[i] == rest[i - 1]; }
      }
    }
  }

  /** The head of an id-ascending conversation sequence has the least id and
      shares its pair with no later row; the tail keeps both properties. */
  lemma ConversationHead(cs: seq<Conversation>)
    requires cs != []
    ensures ConversationIdsAscending(cs) ==>
      ConversationIdsAscending(cs[1..]) && forall c :: c in cs[1..] ==> cs[0].id < c.id
    ensures PairUnique(cs) ==>
      PairUnique(cs[1..]) && forall c :: c in cs[1..] ==> !Joins(c, cs[0].senderId, cs[0].recipientId)
  {
    forall c | c in cs[1..]
      ensures ConversationIdsAscending(cs) ==> cs[0].id < c.id
      ensures PairUnique(cs) ==> !Joins(c, cs[0].senderId, cs[0].recipientId)
    {
      var k :| 0 <= k < |cs[1..]| && cs[1..][k] == c;
      assert cs[k + 1] == c;
    }
  }

  lemma ConversationCons(x: Conversation, rest: seq<Conversation>)
    ensures ConversationIdsAscending(rest) && (forall c :: c in rest ==> x.id < c.id) ==>
      ConversationIdsAscending([x] + rest)
    ensures PairUnique(rest) && (forall c :: c in rest ==> !Joins(c, x.senderId, x.recipientId)) ==>
      PairUnique([x] + rest)
  {
    var r := [x] + rest;
    forall i, j | 0 <= i < j < |r|
      ensures ConversationIdsAscending(rest) && (forall c :: c in rest ==> x.id < c.id) ==> r[i].id < r[j].id
      ensures PairUnique(rest) && (forall c :: c in rest ==> !Joins(c, x.senderId, x.recipientId)) ==>
        !Joins(r[j], r[i].senderId, r[i].recipientId)
    {
      assert r[j] == rest[j - 1] && rest[j - 1] in rest;
      if 0 < i { assert r[i] == rest[i - 1]; }
    }
  }

  /** What every store reachable from `Initial` satisfies. */
  ghost predicate Valid(s: State) {
    UsersValid(s) && ConversationsValid(s) && MessagesValid(s)
  }

  lemma InitialValid()
    ensures Valid(Initial)
  {
  }

  /** In a valid store the id names at most one conversation. */
  lemma ConversationIdUnique(s: State, c: Conversation, d: Conversation)
    requires Valid(s)
    requires c in s.conversations && d in s.conversations && c.id == d.id
    ensures c == d
  {
    var i :| 0 <= i < |s.conversations| && s.conversations[i] == c;
    var j :| 0 <= j < |s.conversations| && s.conversations[j] == d;
    assert !(i < j) && !(j < i);
  }
}

=== FILE: routes.dfy ===
/** The resource routes of the backend: which controller action a request
    line reaches, and the parameters the path and the query string add. */
module Routes {
  import opened Wrappers
  import opened Params

  datatype Action =
    | MessagesIndex | MessagesCreate
    | ConversationsIndex | ConversationsCreate | ConversationsShow
    | UsersIndex | UsersCreate

  /** A matched route: the action and the parameters taken from the path. */
  datatype Route = Route(action: Action, pathParams: Params)

  const Collection: string := "/conversations/"
  const Nested: string := "/messages"

  /** The position of the first `c` in `s`. */
  function IndexOf(s: string, c: char): (r: Option<nat>)
    ensures r.None? <==> c !in s
    ensures r.Some? ==> r.value < |s| && s[r.value] == c && c !in s[..r.value]
  {
    if s == [] then None
    else if s[0] == c then Some(0)
    else
      match IndexOf(s[1..], c)
      case None => None
      case Some(i) =>
        assert s[..i + 1] == [s[0]] + s[1..][..i];
        Some(i + 1)
  }

  /** The first occurrence is the one with none before it. */
  lemma IndexOfFirst(s: string, c: char, k: nat)
    requires k < |s| && s[k] == c && c !in s[..k]
    ensures IndexOf(s, c) == Some(k)
  {
    assert s[k] in s;
  }

  /** What a dynamic segment such as `:id` matches: a non-empty run without
      `/`, `.` (the format separator) or `?`. */
  predicate IsSegment(t: string) {
    t != [] && '/' !in t && '.' !in t && '?' !in t
  }

  /** The action for a collection path: `index` on GET, `create` on POST. */
  function OnCollection(verb: Verb, index: Action, create: Action): Action {
    if verb == Get then index else create
  }

  /** The part of the route table under `/conversations/`: the member path
      `:id` for `show`, and `:conversation_id/messages` for the messages
      actions. */
  function MatchUnder(verb: Verb, rest: string): (r: Option<Route>)
    ensures r.Some? && r.value.action == ConversationsShow ==>
      verb == Get && IsSegment(rest) && r.value.pathParams == [("id", JStr(rest))]
    ensures r.Some? && r.value.action != ConversationsShow ==>
      && |Nested| <= |rest|
      && var seg := rest[..|rest| - |Nested|];
      && IsSegment(seg) && rest == seg + Nested
      && r.value == Route(OnCollection(verb, MessagesIndex, MessagesCreate), [("conversation_id", JStr(seg))])
  {
    match IndexOf(rest, '/')
    case None =>
      if verb == Get && IsSegment(rest) then Some(Route(ConversationsShow, [("id", JStr(rest))])) else None
    case Some(i) =>
      if IsSegment(rest[..i]) && rest[i..] == Nested then
        assert rest == rest[..i] + Nested;
        Some(Route(OnCollection(verb, MessagesIndex, MessagesCreate), [("conversation_id", JStr(rest[..i]))]))
      else None
  }

  /** The route table: `/messages`, `/users` and `/conversations` as
      collections, `/conversations/:id` for `show`, and the messages of one
      conversation nested under it as `/conversations/:conversation_id/messages`. */
  function Match(verb: Verb, path: string): (r: Option<Route>)
    ensures r.Some? && r.value.action == ConversationsShow ==>
      exists seg :: IsSegment(seg) && path == Collection + seg && r.value.pathParams == [("id", JStr(seg))]
    ensures r.Some? && r.value.action in {MessagesIndex, MessagesCreate} ==>
      || (path == "/messages" && r.value.pathParams == [])
      || exists seg :: IsSegment(seg) && path == Collection + seg + Nested && r.value.pathParams == [("conversation_id", JStr(seg))]
    ensures r.Some? && r.value.action in {ConversationsIndex, ConversationsCreate} ==>
      path == "/conversations" && r.value.pathParams == []
    ensures r.Some? && r.value.action in {MessagesIndex, ConversationsIndex, ConversationsShow, UsersIndex} <==> r.Some? && verb == Get
  {
    if path == "/messages" then Some(Route(OnCollection(verb, MessagesIndex, MessagesCreate), []))
    else if path == "/users" then Some(Route(OnCollection(verb, UsersIndex, UsersCreate), []))
    else if path == "/conversations" then Some(Route(OnCollection(verb, ConversationsIndex, ConversationsCreate), []))
    else if |Collection| <= |path| && path[..|Collection|] == Collection then
      var rest := path[|Collection|..];
      assert path == Collection + rest;
      var r := MatchUnder(verb, rest);
      if r.Some? && r.value.action != ConversationsShow then
        var seg := rest[..|rest| - |Nested|];
        assert path == Collection + seg + Nested;
        r
      else r
    else None
  }

  /** The three collection paths reach `index` on GET and `create` on POST. */
  lemma MatchCollections(verb: Verb)
    ensures Match(verb, "/messages") == Some(Route(OnCollection(verb, MessagesIndex, MessagesCreate), []))
    ensures Match(verb, "/conversations") == Some(Route(OnCollection(verb, ConversationsIndex, ConversationsCreate), []))
    ensures Match(verb, "/users") == Some(Route(OnCollection(verb, UsersIndex, UsersCreate), []))
  {
  }

  /** A member path `/conversations/<seg>` reaches `show` with `id` bound to the segment. */
  lemma MatchMember(seg: string)
    requires IsSegment(seg)
    ensures Match(Get, Collection + seg) == Some(Route(ConversationsShow, [("id", JStr(seg))]))
  {
    var path := Collection + seg;
    assert path[..|Collection|] == Collection;
    assert path[|Collection|..] == seg;
  }

  /** A nested path `/conversations/<seg>/messages` reaches the messages
      actions with `conversation_id` bound to the segment. */
  lemma MatchNested(verb: Verb, seg: string)
    requires IsSegment(seg)
    ensures Match(verb, Collection + seg + Nested)
         == Some(Route(OnCollection(verb, MessagesIndex, MessagesCreate), [("conversation_id", JStr(seg))]))
  {
    var path := Collection + seg + Nested;
    assert path[..|Collection|] == Collection;
    var rest := path[|Collection|..];
    assert rest == seg + Nested;
    assert rest[|seg|] == '/';
    assert rest[..|seg|] == seg;
    assert rest[|seg|..] == Nested;
  }

  /** One `key=value` pair of a query string; a bare key carries null. */
  function QueryPair(t: string): (r: (string, Json))
    ensures '=' !in t ==> r == (t, JNull)
  {
    match IndexOf(t, '=')
    case None => (t, JNull)
    case Some(i) => (t[..i], JStr(t[i + 1..]))
  }

  /** The pairs of a query string, in order; empty pieces between `&`s are skipped. */
  function Query(q: string): (r: Params)
    ensures |r| <= |q|
    decreases |q|
  {
    if q == [] then []
    else
      match IndexOf(q, '&')
      case None => [QueryPair(q)]
      case Some(i) => (if i == 0 then [] else [QueryPair(q[..i])]) + Query(q[i + 1..])
  }

  /** A single `key=value` query string without `&` yields exactly that binding. */
  lemma QuerySingle(key: string, value: string)
    requires '=' !in key && '&' !in key && '&' !in value
    ensures Query(key + "=" + value) == [(key, JStr(value))]
  {
    var q := key + "=" + value;
    assert q[|key|] == '=';
    assert forall i :: 0 <= i < |q| ==> q[i] != '&' by {
      forall i | 0 <= i < |q| ensures q[i] != '&' {
        if i < |key| { assert q[i] == key[i]; } else if i > |key| { assert q[i] == value[i - |key| - 1]; }
      }
    }
    assert q[..|key|] == key;
    assert q[|key| + 1..] == value;
  }

  /** The action a request reaches and the parameters it sees: the body's
      parameters, then the query string's, then the path's, later ones
      winning, as Rails merges request, query and path parameters. */
  function Dispatch(verb: Verb, url: string, body: Params): (r: Option<(Action, Params)>)
    ensures '?' !in url ==>
      (r.Some? <==> Match(verb, url).Some?) &&
      (r.Some? ==> r.value == (Match(verb, url).value.action, body + Match(verb, url).value.pathParams))
  {
    var (path, query) := match IndexOf(url, '?')
      case None => (url, [])
      case Some(i) => (url[..i], Query(url[i + 1..]));
    match Match(verb, path)
    case None => None
    case Some(route) =>
      assert '?' !in url ==> body + [] == body;
      Some((route.action, body + query + route.pathParams))
  }

  /** A URL with a query string: the path is matched, the query parsed. */
  lemma DispatchWithQuery(verb: Verb, path: string, q: string, body: Params)
    requires '?' !in path
    ensures Dispatch(verb, path + "?" + q, body) ==
      match Match(verb, path)
      case None => None
      case Some(route) => Some((route.action, body + Query(q) + route.pathParams))
  {
    var url := path + "?" + q;
    assert url[..|path|] == path;
    IndexOfFirst(url, '?', |path|);
    assert url[|path| + 1..] == q;
  }

  /** A key the route does not bind is read from the query string when the
      query binds it, and from the body otherwise. */
  lemma QueryBeatsBody(verb: Verb, path: string, q: string, body: Params, key: string)
    requires '?' !in path
    requires Match(verb, path).Some?
    requires Lookup(Match(verb, path).value.pathParams, key).None?
    ensures Dispatch(verb, path + "?" + q, body).Some?
    ensures Lookup(Dispatch(verb, path + "?" + q, body).value.1, key) ==
      if Lookup(Query(q), key).Some? then Lookup(Query(q), key) else Lookup(body, key)
  {
    var route := Match(verb, path).value;
    DispatchWithQuery(verb, path, q, body);
    LookupConcat(body + Query(q), route.pathParams, key);
    LookupConcat(body, Query(q), key);
  }

  /** Path parameters cannot be overridden by the body or the query string. */
  lemma PathParamsWin(verb: Verb, url: string, body: Params, key: string)
    requires Dispatch(verb, url, body).Some?
    ensures var path := match IndexOf(url, '?') case None => url case Some(i) => url[..i];
      var route := Match(verb, path).value;
      Lookup(route.pathParams, key).Some? ==> Lookup(Dispatch(verb, url, body).value.1, key) == Lookup(route.pathParams, key)
  {
    var path := match IndexOf(url, '?') case None => url case Some(i) => url[..i];
    var query := match IndexOf(url, '?') case None => [] case Some(i) => Query(url[i + 1..]);
    var route := Match(verb, path).value;
    LookupConcat(body + query, route.pathParams, key);
  }
}

=== FILE: server.dfy ===
/** The backend as one request handler: route the request, run the
    controller action on the store, answer with a status and a body. */
module Server {
  import opened Wrappers
  import opened Records
  import opened Params
  import Routes
  import Conversations
  import Broadcasts
  import MessagesController
  import ConversationsController

  /** The JSON a response carries, by shape. */
  datatype Body =
    | MessageList(messages: seq<Message>)
    | MessageBody(message: Message)
    | EntryList(entries: seq<Conversations.Entry>)
    | ConversationBody(conversation: Conversation)
    | ErrorBody

  datatype Response = Response(state: State, status: nat, body: Body, broadcasts: seq<Broadcasts.Broadcast>)

  /** Serve one request. Unrouted requests and the users endpoints answer
      None: `UsersController` is not part of this model. */
  function Handle(s: State, verb: Verb, url: string, body: Params): (r: Option<Response>)
    ensures r.Some? ==> Routes.Dispatch(verb, url, body).Some?
    ensures r.Some? && verb == Get ==> r.value.state == s && r.value.broadcasts == []
    ensures r.Some? && r.value.state != s ==> verb == Post && r.value.status in {200, 201}
  {
    match Routes.Dispatch(verb, url, body)
    case None => None
    case Some((action, p)) =>
      match action
      case MessagesIndex => Some(Response(s, 200, MessageList(MessagesController.Index(s, p)), []))
      case MessagesCreate =>
        var r := MessagesController.Create(s, p);
        Some(Response(r.state, r.status, if r.created.Some? then MessageBody(r.created.value) else ErrorBody, r.broadcasts))
      case ConversationsIndex => Some(Response(s, 200, EntryList(ConversationsController.Index(s, p)), []))
      case ConversationsCreate =>
        var r := ConversationsController.Create(s, p);
        Some(Response(r.state, r.status, if r.conversation.Some? then ConversationBody(r.conversation.value) else ErrorBody, []))
      case ConversationsShow =>
        var r := ConversationsController.Show(s, p);
        Some(Response(s, r.status, if r.conversation.Some? then ConversationBody(r.conversation.value) else ErrorBody, []))
      case UsersIndex => None
      case UsersCreate => None
  }
}

=== FILE: text.dfy ===
/** The two notions of "blank" text the chat uses: ActiveSupport's `blank?`,
    behind `validates :content, presence: true` on the server, and an empty
    `String.prototype.trim()`, behind the send guard on the client. */
module Text {

  /** Ruby's `[[:space:]]` on a UTF-8 string: the Unicode White_Space property. */
  predicate IsRubySpace(c: char) {
    || ('\t' <= c <= '\r')
    || c == ' '
    || c == '\U{85}'
    || c == '\U{A0}'
    || c == '\U{1680}'
    || ('\U{2000}' <= c <= '\U{200A}')
    || c == '\U{2028}'
    || c == '\U{2029}'
    || c == '\U{202F}'
    || c == '\U{205F}'
    || c == '\U{3000}'
  }

  /** The characters ECMAScript's `trim` strips: WhiteSpace (which has U+FEFF
      but not U+0085) and LineTerminator. */
  predicate IsJsSpace(c: char) {
    || ('\t' <= c <= '\r')
    || c == ' '
    || c == '\U{A0}'
    || c == '\U{1680}'
    || ('\U{2000}' <= c <= '\U{200A}')
    || c == '\U{2028}'
    || c == '\U{2029}'
    || c == '\U{202F}'
    || c == '\U{205F}'
    || c == '\U{3000}'
    || c == '\U{FEFF}'
  }

  /** `String#blank?`: empty, or white space only. A missing value (`nil`) is
      blank too; callers model it with `Option`. */
  predicate Blank(s: string) {
    forall i :: 0 <= i < |s| ==> IsRubySpace(s[i])
  }

  predicate JsBlank(s: string) {
    forall i :: 0 <= i < |s| ==> IsJsSpace(s[i])
  }

  /** Drops leading JavaScript white space. */
  function TrimStart(s: string): (r: string)
    ensures |r| <= |s| && r == s[|s| - |r|..]
    ensures forall i :: 0 <= i < |s| - |r| ==> IsJsSpace(s[i])
    ensures r == [] || !IsJsSpace(r[0])
  {
    if |s| > 0 && IsJsSpace(s[0]) then TrimStart(s[1..]) else s
  }

  /** Drops trailing JavaScript white space. */
  function TrimEnd(s: string): (r: string)
    ensures |r| <= |s| && r == s[..|r|]
    ensures forall i :: |r| <= i < |s| ==> IsJsSpace(s[i])
    ensures r == [] || !IsJsSpace(r[|r| - 1])
  {
    if |s| > 0 && IsJsSpace(s[|s| - 1]) then TrimEnd(s[..|s| - 1]) else s
  }

  /** `String.prototype.trim`. */
  function Trim(s: string): string {
    TrimEnd(TrimStart(s))
  }

  /** The client's guard `!input.trim()` holds exactly for JavaScript-blank input. */
  lemma TrimEmptyIffJsBlank(s: string)
    ensures Trim(s) == [] <==> JsBlank(s)
  {
    var t := TrimStart(s);
    if Trim(s) != [] {
      var r := Trim(s);
      assert !IsJsSpace(r[0]);
      assert r[0] == t[0] == s[|s| - |t|];
    }
  }

  /** The two blank notions differ: a lone NEL passes the client guard and is
      refused by the server, a lone BOM is stopped by the client although the
      server would take it. */
  lemma BlankNotionsDiffer()
    ensures !JsBlank("\U{85}") && Blank("\U{85}")
    ensures JsBlank("\U{FEFF}") && !Blank("\U{FEFF}")
  {
    assert !IsJsSpace("\U{85}"[0]);
    assert !IsRubySpace("\U{FEFF}"[0]);
  }
}

=== FILE: topics.dfy ===
/** Names of the publish/subscribe topics, and the topics the two server-side
    channels stream from when a client subscribes. */
module Topics {
  import opened Wrappers
  import Decimal

  /** The topic of the global room: messages that belong to no conversation. */
  const GlobalRoom: string := "chat_channel"
  const ConversationPrefix: string := "conversation_"
  const UserPrefix: string := "user_"

  /** The topic a conversation's messages are published on. */
  function ConversationTopic(id: nat): string {
    ConversationPrefix + Decimal.Show(id)
  }

  /** A user's personal topic, carrying conversation-updated notices. */
  function UserTopic(id: nat): string {
    UserPrefix + Decimal.Show(id)
  }

  /** `ChatChannel#subscribed`: a given `conversation_id` parameter is
      interpolated verbatim after the prefix; without one the subscription
      streams from the global room. Exactly one topic either way. */
  function ChatChannelStreams(conversationParam: Option<string>): (topics: seq<string>)
    ensures |topics| == 1
    ensures conversationParam.None? <==> topics[0] == GlobalRoom
  {
    match conversationParam
    case Some(p) => [ConversationPrefix + p]
    case None => [GlobalRoom]
  }

  /** `UserChannel#subscribed`: the personal topic of the given `user_id`
      parameter, or no topic at all without one. */
  function UserChannelStreams(userParam: Option<string>): (topics: seq<string>)
    ensures |topics| <= 1
    ensures |topics| == 1 <==> userParam.Some?
  {
    match userParam
    case Some(p) => [UserPrefix + p]
    case None => []
  }

  /** The three topic families never share a name. */
  lemma FamiliesDisjoint(c: nat, u: nat)
    ensures ConversationTopic(c) != UserTopic(u)
    ensures ConversationTopic(c) != GlobalRoom
    ensures UserTopic(u) != GlobalRoom
  {
    assert ConversationTopic(c)[0] == 'c' && UserTopic(u)[0] == 'u';
    assert ConversationTopic(c)[1] == 'o' && GlobalRoom[1] == 'h';
  }

  lemma ConversationTopicInjective(a: nat, b: nat)
    ensures ConversationTopic(a) == ConversationTopic(b) <==> a == b
  {
    if ConversationTopic(a) == ConversationTopic(b) {
      assert Decimal.Show(a) == ConversationTopic(a)[|ConversationPrefix|..];
      assert Decimal.Show(b) == ConversationTopic(b)[|ConversationPrefix|..];
      Decimal.ShowInjective(a, b);
    }
  }

  lemma UserTopicInjective(a: nat, b: nat)
    ensures UserTopic(a) == UserTopic(b) <==> a == b
  {
    if UserTopic(a) == UserTopic(b) {
      assert Decimal.Show(a) == UserTopic(a)[|UserPrefix|..];
      assert Decimal.Show(b) == UserTopic(b)[|UserPrefix|..];
      Decimal.ShowInjective(a, b);
    }
  }

  /** A chat subscription reaches a conversation's topic exactly when its
      parameter is that id's canonical rendering (`"012"` does not reach 12). */
  lemma ChatSubscriptionReaches(p: string, c: nat)
    ensures ChatChannelStreams(Some(p)) == [ConversationTopic(c)] <==> p == Decimal.Show(c)
  {
    if ChatChannelStreams(Some(p)) == [ConversationTopic(c)] {
      assert p == (ConversationPrefix + p)[|ConversationPrefix|..];
      assert Decimal.Show(c) == ConversationTopic(c)[|ConversationPrefix|..];
    }
  }

  /** A user subscription reaches a user's topic exactly when its parameter is
      that id's canonical rendering. */
  lemma UserSubscriptionReaches(p: string, u: nat)
    ensures UserChannelStreams(Some(p)) == [UserTopic(u)] <==> p == Decimal.Show(u)
  {
    if UserChannelStreams(Some(p)) == [UserTopic(u)] {
      assert p == (UserPrefix + p)[|UserPrefix|..];
      assert Decimal.Show(u) == UserTopic(u)[|UserPrefix|..];
    }
  }
}

=== FILE: users.dfy ===
/** The `User` model: username presence and uniqueness, and the three
    associations a user has. */
module Users {
  import opened Wrappers
  import opened Records
  import Text

  predicate UsernameTaken(users: seq<User>, name: string) {
    exists u :: u in users && u.username == name
  }

  /** Creating a user: the username must be present and not taken (compared
      exactly); the row gets the next id. */
  function CreateUser(s: State, username: Option<string>, avatarUrl: Option<string>)
    : (r: Result<(State, User), Error>)
    ensures r.Err? <==>
      username.None? || Text.Blank(username.value) || UsernameTaken(s.users, username.value)
    ensures r.Err? ==> r.error == Invalid("username")
    ensures r.Ok? ==>
      && r.value.1 == User(s.nextUserId, username.value, avatarUrl)
      && r.value.0 == s.(users := s.users + [r.value.1], nextUserId := s.nextUserId + 1)
  {
    if username.None? || Text.Blank(username.value) || UsernameTaken(s.users, username.value) then
      Err(Invalid("username"))
    else
      var u := User(s.nextUserId, username.value, avatarUrl);
      Ok((s.(users := s.users + [u], nextUserId := s.nextUserId + 1), u))
  }

  lemma CreateUserPreservesValid(s: State, username: Option<string>, avatarUrl: Option<string>)
    requires Valid(s)
    requires CreateUser(s, username, avatarUrl).Ok?
    ensures Valid(CreateUser(s, username, avatarUrl).value.0)
  {
    var (s', u) := CreateUser(s, username, avatarUrl).value;
    forall i, j | 0 <= i < j < |s'.users| ensures s'.users[i].username != s'.users[j].username {
      if j == |s.users| {
        assert s'.users[i] in s.users;
      }
    }
    assert forall x :: x in s'.users ==> x in s.users || x == u;
    forall c | c in s'.conversations
      ensures UserExists(s'.users, c.senderId) && UserExists(s'.users, c.recipientId)
    {
      var a :| a in s.users && a.id == c.senderId;
      var b :| b in s.users && b.id == c.recipientId;
      assert a in s'.users && b in s'.users;
    }
    forall m | m in s'.messages && m.userId.Some? ensures UserExists(s'.users, m.userId.value) {
      var a :| a in s.users && a.id == m.userId.value;
      assert a in s'.users;
    }
  }

  /** Once a username is registered, registering it again fails. */
  lemma UsernameRegisteredOnce(s: State, name: string, a1: Option<string>, a2: Option<string>)
    requires CreateUser(s, Some(name), a1).Ok?
    ensures CreateUser(CreateUser(s, Some(name), a1).value.0, Some(name), a2).Err?
  {
    var (s', u) := CreateUser(s, Some(name), a1).value;
    assert u in s'.users;
  }

  /** `User#messages`: the messages whose `user_id` is the user. */
  function MessagesOf(ms: seq<Message>, uid: nat): (r: seq<Message>)
    ensures forall m :: m in r <==> m in ms && m.userId == Some(uid)
  {
    if ms == [] then []
    else (if ms[0].userId == Some(uid) then [ms[0]] else []) + MessagesOf(ms[1..], uid)
  }

  /** `User#conversations_sent`: the conversations the user started. */
  function ConversationsSent(cs: seq<Conversation>, uid: nat): (r: seq<Conversation>)
    ensures forall c :: c in r <==> c in cs && c.senderId == uid
  {
    if cs == [] then []
    else (if cs[0].senderId == uid then [cs[0]] else []) + ConversationsSent(cs[1..], uid)
  }

  /** `User#conversations_received`: the conversations started with the user. */
  function ConversationsReceived(cs: seq<Conversation>, uid: nat): (r: seq<Conversation>)
    ensures forall c :: c in r <==> c in cs && c.recipientId == uid
  {
    if cs == [] then []
    else (if cs[0].recipientId == uid then [cs[0]] else []) + ConversationsReceived(cs[1..], uid)
  }
}

=== FILE: wrappers.dfy ===
/** Failure-compatible wrappers shared by every module of the chat model. */
module Wrappers {

  /** An optional value: Ruby's `nil`, JavaScript's `null`/`undefined`, or an
      absent request parameter. */
  datatype Option<+T> = None | Some(value: T) {

    function GetOr(default: T): T {
      match this
      case Some(v) => v
      case None => default
    }
  }

  /** The outcome of an operation that can fail with an error of type `E`. */
  datatype Result<+T, +E> = Ok(value: T) | Err(error: E)
}
